=== FILE: README.md ===
# pictory-ai-clone core, modelled in Dafny

This project models the sequential logic of the pictory-ai-clone web
application, an AI image and video creation front end. It covers four parts:

- **Application state container** (`stores/useAppStore.ts`). The session
  flags, the UI state and three id-keyed collections: projects, assets and
  generation jobs. Every action is a pure function from the old state to the
  new one.
- **Billing plan catalog** (`lib/stripe/plans.ts`). Three monthly offers and
  two yearly offers, the lookups into them, usage limits, feature access,
  price formatting and the yearly discount. All amounts are integer cents.
- **Session and profile synchronisation** (`hooks/useAuth.ts`). The error-code
  map, get-or-create of the user document, and the effect of every flow:
  sign up, sign in, Google sign-in, sign out, password reset, profile update,
  refresh and the session listener.
- **Authentication form** (`components/auth/AuthForm.tsx`). The submit gate
  on accepting the terms, how form fields reach the flows, the single-field
  input update and the mode toggle.

The record shapes and string unions of `types/index.ts` are Dafny datatypes
(`Types`). The dashboard's hard-coded tier limits are checked against the
catalog (`Dashboard`).

Modules: `Common` (Option, Result, object-spread of one key, splitting at a
character), `Types`, `Collections` (update and removal by id), `Decimal`
(numerals), `Store`, `Plans`, `Auth`, `AuthForm`, `Dashboard`.

How the model stands in for JavaScript:

- **Users are one all-optional record.** A stored document, a
  `Partial<User>` patch and the user held in the store share one shape with
  every key optional. The source reads documents with an unchecked `as User`
  cast and merges them by spreading. `Types.IsComplete` says when such a
  record is a full `User`.
- **Object spread** `{...a, ...b}` is key-wise: `Common.Over` for optional
  keys, `Common.OverValue` for required ones.
- **Providers are inputs.** Each call to the identity provider or the document
  store is an input saying how it ended: an identity, or a `Fault` with the
  error's `code` and `message`. Each flow is one atomic step from the state
  before it to the state after it.
- **Document store** is a `map` from uid to document.
- **Missing identity fields.** An empty `displayName` or `photoURL` in an
  identity stands for a missing one. A missing display name is replaced by
  the email's local part. A missing photo is written as `photoURL: undefined`,
  which the document store refuses; "## Findings" has the details.
- **`serverTimestamp()`** is the constructor `ServerTimestamp`. All other
  times are opaque.

Three behaviours of the code are easy to assume otherwise, and the model
keeps them as written:

- `signOut` clears the user only after the provider sign-out succeeded; a
  failed sign-out keeps the user signed in.
- `addSelectedAsset` neither deduplicates nor checks that the asset exists,
  so the selection is a list that may repeat ids or name unknown assets.
- The sign-up flow in `useAuth.ts` never reads `agreeToTerms`; only the form
  checks it.

## Model

| member | source | states |
|---|---|---|
| Types.PlanFromTag | pictory-ai-clone/src/types/index.ts:4 | a tag names a plan exactly when it is "free", "pro" or "enterprise", and the plan read back has that tag |
| Types.StatusFromTag | pictory-ai-clone/src/types/index.ts:5 | a tag names a subscription status exactly when it is one of the four status strings, and the status read back has that tag |
| Types.AssetTypeFromTag | pictory-ai-clone/src/types/index.ts:42 | only "image" and "video" name an asset type |
| Types.AssetStatusFromTag | pictory-ai-clone/src/types/index.ts:43 | only pending, processing, completed and failed name an asset status |
| Types.JobTypeFromTag | pictory-ai-clone/src/types/index.ts:127 | only "image" and "video" name a job type |
| Types.JobStatusFromTag | pictory-ai-clone/src/types/index.ts:128 | only queued, processing, completed and failed name a job status |
| Types.ViewModeFromTag | pictory-ai-clone/src/types/index.ts:194 | only "grid" and "list" name a view mode |
| Types.IntervalFromTag | pictory-ai-clone/src/types/index.ts:161 | only "month" and "year" name a billing interval |
| Types.TagsRoundTrip | pictory-ai-clone/src/types/index.ts:4-5 | every value of each of the eight enumerations is read back from its own tag, so tags and values correspond one to one |
| Types.SpreadUserLaws | pictory-ai-clone/src/hooks/useAuth.ts:187 | merging user records by spread has `{}` as unit on both sides, is associative, is idempotent for a repeated patch, and keeps a complete user complete |
| Collections.UpdateById | pictory-ai-clone/src/stores/useAppStore.ts:179-187 | an update by id keeps the length and order; every element with the id is merged with the patch and every other element is unchanged |
| Collections.UpdateAbsentIsIdentity | pictory-ai-clone/src/stores/useAppStore.ts:179-187 | an update by an id no element carries returns the collection unchanged: it never inserts |
| Collections.RemoveById | pictory-ai-clone/src/stores/useAppStore.ts:189-195 | a value is kept by a removal exactly when it was present and its id differs from the removed one |
| Collections.RemoveByIdExact | pictory-ai-clone/src/stores/useAppStore.ts:189-195 | a removal drops every copy of the elements with the id, keeps each other element with its multiplicity, and keeps the survivors in their original order |
| Collections.RemoveAbsentIsIdentity | pictory-ai-clone/src/stores/useAppStore.ts:222-227 | removing an id that nothing carries changes nothing |
| Collections.RemoveByIdIdempotent | pictory-ai-clone/src/stores/useAppStore.ts:189-195 | removing the same id twice is the same as removing it once |
| Collections.RemoveAfterAppend | pictory-ai-clone/src/stores/useAppStore.ts:171-195 | appending an element with a new id and removing that id gives back the original collection |
| Decimal.NatToString | pictory-ai-clone/src/lib/stripe/plans.ts:131 | a whole number prints as a non-empty string of digits with no leading zero |
| Decimal.ParseNatToString | pictory-ai-clone/src/lib/stripe/plans.ts:131 | reading back the printed numeral of a number yields that number |
| Decimal.TwoDigits | pictory-ai-clone/src/lib/stripe/plans.ts:131 | a number below one hundred prints as exactly two digits |
| Decimal.ParseTwoDigits | pictory-ai-clone/src/lib/stripe/plans.ts:131 | reading back the two printed digits yields the number |
| Store.SetUser | pictory-ai-clone/src/stores/useAppStore.ts:74-82 | the user is the given one, authentication holds exactly when a user is given, loading is over, and the UI and collections are unchanged |
| Store.SetLoading | pictory-ai-clone/src/stores/useAppStore.ts:84-88 | only the session loading flag changes |
| Store.SetUIError | pictory-ai-clone/src/stores/useAppStore.ts:91-97 | only the UI error changes |
| Store.SetUILoading | pictory-ai-clone/src/stores/useAppStore.ts:99-105 | only the UI loading flag changes |
| Store.SetViewMode | pictory-ai-clone/src/stores/useAppStore.ts:107-113 | only the view mode changes |
| Store.SetSelectedAssets | pictory-ai-clone/src/stores/useAppStore.ts:115-121 | only the selection changes, to the given list |
| Store.AddSelectedAsset | pictory-ai-clone/src/stores/useAppStore.ts:123-132 | the id is appended even when already selected: its count grows by one and the rest of the selection stays in order |
| Store.RemoveSelectedAsset | pictory-ai-clone/src/stores/useAppStore.ts:134-143 | every occurrence of the id leaves the selection; every other id stays with the same number of occurrences and in the same order; nothing else changes |
| Store.ClearSelectedAssets | pictory-ai-clone/src/stores/useAppStore.ts:145-151 | the selection is empty and nothing else changes |
| Store.SetFilters | pictory-ai-clone/src/stores/useAppStore.ts:153-162 | each filter key the patch supplies is overwritten, each it omits is kept, and the other UI fields are unchanged |
| Store.SetFiltersLaws | pictory-ai-clone/src/stores/useAppStore.ts:153-162 | merging `{}` changes nothing, merging the same patch twice equals merging it once, and two merges equal one merge of the combined patch |
| Store.SetProjects | pictory-ai-clone/src/stores/useAppStore.ts:165-169 | only the project list changes, to the given one |
| Store.AddProject | pictory-ai-clone/src/stores/useAppStore.ts:171-177 | the project is appended at the end without a duplicate check; the other collections and the UI are unchanged |
| Store.UpdateProject | pictory-ai-clone/src/stores/useAppStore.ts:179-187 | the projects with the id take the patch's keys, the others are unchanged, length and order are kept |
| Store.RemoveProject | pictory-ai-clone/src/stores/useAppStore.ts:189-195 | a project survives exactly when its id differs; the other collections are unchanged |
| Store.SetAssets | pictory-ai-clone/src/stores/useAppStore.ts:198-202 | only the asset list changes, to the given one |
| Store.AddAsset | pictory-ai-clone/src/stores/useAppStore.ts:204-210 | the asset is appended at the end; everything else is unchanged |
| Store.UpdateAsset | pictory-ai-clone/src/stores/useAppStore.ts:212-220 | the assets with the id take the patch's keys, the others are unchanged, length and order are kept |
| Store.RemoveAsset | pictory-ai-clone/src/stores/useAppStore.ts:222-232 | the asset leaves the list and its id leaves the selection; the other UI fields and collections are unchanged |
| Store.SetGenerationJobs | pictory-ai-clone/src/stores/useAppStore.ts:235-239 | only the job list changes, to the given one |
| Store.AddGenerationJob | pictory-ai-clone/src/stores/useAppStore.ts:241-247 | the job is appended at the end; everything else is unchanged |
| Store.UpdateGenerationJob | pictory-ai-clone/src/stores/useAppStore.ts:249-257 | the jobs with the id take the patch's keys, the others are unchanged, length and order are kept |
| Store.RemoveGenerationJob | pictory-ai-clone/src/stores/useAppStore.ts:259-265 | a job survives exactly when its id differs; everything else is unchanged |
| Store.Reset | pictory-ai-clone/src/stores/useAppStore.ts:268-280 | no user, not authenticated, not loading, the initial UI, and empty collections, whatever the state before |
| Store.ResetIsInitialNotLoading | pictory-ai-clone/src/stores/useAppStore.ts:53-71 | the initial state has no user, is loading, shows grid view with no error, selection or filter, and equals the reset state except for loading |
| Store.UpdateAbsentIsNoOp | pictory-ai-clone/src/stores/useAppStore.ts:179-187 | an update by an absent id leaves the whole state unchanged, for projects, assets and jobs |
| Store.UpdateKeepsIds | pictory-ai-clone/src/stores/useAppStore.ts:212-220 | a patch without an id key leaves every element's id in place |
| Store.RemoveProjectExact | pictory-ai-clone/src/stores/useAppStore.ts:189-195 | removing a project id drops exactly the projects with it, keeps the rest in order with their multiplicity, and is idempotent |
| Store.RemoveAssetExact | pictory-ai-clone/src/stores/useAppStore.ts:222-232 | removing an asset id drops exactly the assets with it, keeps the others in order, drops every occurrence of the id from the selection while keeping the other entries with their multiplicity and order, and is idempotent |
| Store.RemoveGenerationJobExact | pictory-ai-clone/src/stores/useAppStore.ts:259-265 | removing a job id drops exactly the jobs with it, keeps the rest in order, and is idempotent |
| Store.AddThenRemoveRestores | pictory-ai-clone/src/stores/useAppStore.ts:171-177 | adding an element with a new id and removing that id restores the state |
| Store.SelectionKnownPreserved | pictory-ai-clone/src/stores/useAppStore.ts:222-232 | if every selected id names a held asset, that still holds after removing an asset, adding an asset, deselecting or clearing |
| Store.AddSelectedAssetUnchecked | pictory-ai-clone/src/stores/useAppStore.ts:123-132 | selecting an id that names no asset breaks that property, because selection is unchecked |
| Plans.FirstMatch | pictory-ai-clone/src/lib/stripe/plans.ts:105 | the index found is of a matching plan with no match before it, and nothing is found exactly when no plan matches |
| Plans.FindIsFirst | pictory-ai-clone/src/lib/stripe/plans.ts:105 | a matching plan with no match before it is the one found |
| Plans.GetPlanById | pictory-ai-clone/src/lib/stripe/plans.ts:103-106 | a found plan is an offer of the requested interval with the requested id, and nothing is found exactly when no offer of that interval has the id |
| Plans.MonthlyIndex | pictory-ai-clone/src/lib/stripe/plans.ts:3-60 | each tier has a monthly offer, carrying that tier and the tier's feature set |
| Plans.AnnualIndex | pictory-ai-clone/src/lib/stripe/plans.ts:62-101 | each paid tier has a yearly offer, carrying that tier and the tier's feature set |
| Plans.MonthlyOfferOf | pictory-ai-clone/src/lib/stripe/plans.ts:103-106 | looking up any tier's id by month finds that tier's monthly offer |
| Plans.AnnualOfferOf | pictory-ai-clone/src/lib/stripe/plans.ts:103-106 | looking up a paid tier's id by year finds its yearly offer, and "free" has no yearly offer |
| Plans.OffersCarryTierFeatures | pictory-ai-clone/src/lib/stripe/plans.ts:3-101 | every offer of either table carries its tier's feature set, so monthly and yearly offers of a tier grant the same features |
| Plans.GetPlanByPriceId | pictory-ai-clone/src/lib/stripe/plans.ts:108-111 | a found plan is an offer with that price id, and nothing is found exactly when no offer has it |
| Plans.GetPlanByPriceIdFindsEveryOffer | pictory-ai-clone/src/lib/stripe/plans.ts:3-111 | each of the five offers is found by its own price id, so the price ids are distinct; the empty price id finds the free plan |
| Plans.GetUsageLimits | pictory-ai-clone/src/lib/stripe/plans.ts:113-122 | null exactly for an id without a monthly offer; otherwise that offer's image and video allowances and its storage times 1024 |
| Plans.UsageLimitsTable | pictory-ai-clone/src/lib/stripe/plans.ts:113-122 | the limits are 10/3/1024 for free, 500/50/25600 for pro and 2000/200/102400 for enterprise |
| Plans.CheckFeatureAccess | pictory-ai-clone/src/lib/stripe/plans.ts:124-127 | a falsy feature value comes back as `false`, and an id without a monthly offer gets `false` |
| Plans.CheckFeatureAccessMeaning | pictory-ai-clone/src/lib/stripe/plans.ts:124-127 | the result is truthy exactly when a monthly offer with the id has a truthy value for the feature, and is then that value |
| Plans.FeatureAccessOfTier | pictory-ai-clone/src/lib/stripe/plans.ts:3-127 | a tier's access to a feature is that tier's own value, or `false` when the value is falsy |
| Plans.UnknownPlanGrantsNothing | pictory-ai-clone/src/lib/stripe/plans.ts:103-127 | a string naming no tier finds no offer of either interval, has no usage limits and is granted no feature |
| Plans.CustomBrandingByTier | pictory-ai-clone/src/lib/stripe/plans.ts:3-127 | custom branding is granted to enterprise and to no other tier |
| Plans.PaidSwitchesByTier | pictory-ai-clone/src/lib/stripe/plans.ts:3-127 | API access, commercial rights, advanced models and priority are granted to every paid tier and never to the free tier |
| Plans.FormatPrice | pictory-ai-clone/src/lib/stripe/plans.ts:130-133 | the text starts with "$", and a minus sign follows it exactly for a negative price |
| Plans.FormatAmount | pictory-ai-clone/src/lib/stripe/plans.ts:130-133 | the unsigned part starts with a digit |
| Plans.ParseAmountOfFormatted | pictory-ai-clone/src/lib/stripe/plans.ts:130-133 | the unsigned part of a formatted price reads back to its cents and interval |
| Plans.FormatPriceRoundTrip | pictory-ai-clone/src/lib/stripe/plans.ts:130-133 | every printed price, negative ones included, reads back to its cents and interval, so the dollar and two-digit cent format loses nothing |
| Plans.FormatPriceExamples | pictory-ai-clone/src/lib/stripe/plans.ts:130-133 | 2900 cents a month prints as "$29.00/month" and 27840 a year as "$278.40/year" |
| Plans.RoundDiv | pictory-ai-clone/src/lib/stripe/plans.ts:138 | the result is the quotient rounded to nearest with halves upwards |
| Plans.RoundsHalfUpUnique | pictory-ai-clone/src/lib/stripe/plans.ts:138 | only one integer is that rounding, so the rounding is determined |
| Plans.DiscountAmount | pictory-ai-clone/src/lib/stripe/plans.ts:135-139 | the result is 100 times the saving over twelve monthly payments, divided by those payments, rounded half up |
| Plans.DiscountOfExactPrice | pictory-ai-clone/src/lib/stripe/plans.ts:135-139 | a yearly price of exactly (100 - d) percent of twelve months is a discount of d |
| Plans.AnnualOffersMirrorMonthly | pictory-ai-clone/src/lib/stripe/plans.ts:62-100 | each yearly offer has the id, name and features of its monthly tier, costs twelve months less 20 percent, and is a 20 percent discount, as (2900, 27840) gives 20 |
| Auth.CodeTagInjective | pictory-ai-clone/src/hooks/useAuth.ts:253-270 | the nine error codes the map knows are pairwise different strings |
| Auth.AuthCodeFromTag | pictory-ai-clone/src/hooks/useAuth.ts:253-270 | a string is recognised as a known code exactly when it is one of the nine codes' strings, and then as that code |
| Auth.AuthErrorMessage | pictory-ai-clone/src/hooks/useAuth.ts:251-274 | the string of a known code gives that code's fixed message, and any other string gives the generic one |
| Auth.AuthErrorMessageIdentifiesCode | pictory-ai-clone/src/hooks/useAuth.ts:251-274 | a known code never gets the generic message, and two strings get the same message only when they are the same string or both unknown, so the message identifies the known code |
| Auth.LocalPart | pictory-ai-clone/src/hooks/useAuth.ts:34 | the result is the longest prefix of the email without an '@', and is followed by '@' when shorter than the email |
| Auth.LocalPartOf | pictory-ai-clone/src/hooks/useAuth.ts:34 | the local part of "local@domain" is `local` |
| Auth.GetOrCreate | pictory-ai-clone/src/hooks/useAuth.ts:23-74 | a failed read fails with that fault; an existing document is returned with the uid and nothing is written; an absent one is written once, and a failed write fails with the write's fault; completeness of documents is kept |
| Auth.NewUserDefaults | pictory-ai-clone/src/hooks/useAuth.ts:29-60 | a first-time user gets the identity's name or else the email's local part, the free active plan with no customer id, zero usage and an empty brand kit, each overridden by the extra data |
| Auth.NewUserExample | pictory-ai-clone/src/hooks/useAuth.ts:29-64 | "u1" with email "a@b.com" and no name is created with one write as "a" on the free plan with no images generated |
| Auth.GetOrCreateIdempotent | pictory-ai-clone/src/hooks/useAuth.ts:69-73 | after one successful get-or-create, a second one for the same uid writes nothing and returns the same user |
| Auth.GetOrCreateAsWritten | pictory-ai-clone/src/hooks/useAuth.ts:29-68 | as written, get-or-create fails with the store's invalid-argument fault for a first-time user without a photo whose extra data supplies none; it fails otherwise exactly when get-or-create does, and any success is get-or-create's |
| Auth.EmailSignUpRefusedAsWritten | pictory-ai-clone/src/hooks/useAuth.ts:35 | an email sign-up of "u1" with "a@b.com" and no photo is refused as written and shows the generic message, while the corrected get-or-create stores the user |
| Auth.SignUp | pictory-ai-clone/src/hooks/useAuth.ts:77-99 | succeeds exactly when account creation, renaming and get-or-create of the renamed identity succeed, and then publishes get-or-create's user and stores its documents; any failure, of a provider or of the document store, keeps the user and the documents and reports the mapped message of its code; a new user carries the form's name; loading ends false |
| Auth.SignIn | pictory-ai-clone/src/hooks/useAuth.ts:102-121 | succeeds exactly when the provider accepts and get-or-create succeeds, then publishes that user and stores get-or-create's documents; a failure of the provider, the read or the write keeps the user and the documents and reports the mapped message of its code |
| Auth.SignInWithGoogle | pictory-ai-clone/src/hooks/useAuth.ts:124-147 | the same contract as password sign-in, with the popup's outcome in place of the password check |
| Auth.SignOut | pictory-ai-clone/src/hooks/useAuth.ts:150-160 | success clears the user and the identity; failure changes only the error, to the mapped message |
| Auth.ResetPassword | pictory-ai-clone/src/hooks/useAuth.ts:163-173 | only the error changes: cleared on success, the mapped message on failure |
| Auth.UpdateUserProfile | pictory-ai-clone/src/hooks/useAuth.ts:176-195 | with no user it fails with "No user logged in" and changes nothing; a failed write reports the store's own message; a success leaves the error as it was, makes the user the merge of the user and the updates and writes only that user's document |
| Auth.UpdateUserProfileMerges | pictory-ai-clone/src/hooks/useAuth.ts:180-184 | for each of the eight keys of a user, the written document takes the update's value when the update supplies the key and keeps the stored value otherwise; `updatedAt` is always the server time |
| Auth.RefreshUserData | pictory-ai-clone/src/hooks/useAuth.ts:198-212 | with an identity and a readable existing document the user becomes that document with the uid and loading ends; otherwise nothing changes |
| Auth.SessionChanged | pictory-ai-clone/src/hooks/useAuth.ts:215-229 | no identity or a failed get-or-create leaves no user and the documents as they were; otherwise get-or-create's user is published and its documents stored; loading ends and authentication matches the user |
| Auth.WrongPasswordExample | pictory-ai-clone/src/hooks/useAuth.ts:114-117 | a wrong password leaves the user as it was and reports "Incorrect password. Please try again." |
| Auth.InitialAuthKeepsInvariant | pictory-ai-clone/src/stores/useAppStore.ts:63-72 | the state before any flow, with no user and no documents, meets the invariant |
| Auth.InvariantGivesUid | pictory-ai-clone/src/types/index.ts:29-39 | a complete user in the store has a uid, which the profile update needs |
| Auth.SignInFlowsKeepInvariant | pictory-ai-clone/src/hooks/useAuth.ts:77-121 | sign-up and sign-in keep the documents complete, the user complete, and authentication tied to the user |
| Auth.SessionFlowsKeepInvariant | pictory-ai-clone/src/hooks/useAuth.ts:150-229 | sign-out, password reset, refresh and the session listener keep the same invariant |
| Auth.UpdateUserProfileKeepsInvariant | pictory-ai-clone/src/hooks/useAuth.ts:176-195 | a profile update keeps the invariant when the user's document exists |
| Auth.UpdateWithoutDocumentLeavesPartialDocument | pictory-ai-clone/src/hooks/useAuth.ts:180-184 | when the document is missing, the merge write creates a document lacking required keys |
| Auth.SignInFlowsKeepUid | pictory-ai-clone/src/hooks/useAuth.ts:23-147 | sign-up, sign-in and Google sign-in keep a published user's uid present, even from a state outside the invariant |
| Auth.SessionFlowsKeepUid | pictory-ai-clone/src/hooks/useAuth.ts:150-229 | sign-out, password reset, refresh, the session listener and a profile update keep a published user's uid present, even from a state outside the invariant |
| AuthForm.HandleInputChange | pictory-ai-clone/src/components/auth/AuthForm.tsx:66-72 | exactly the named field changes: to the checked state for the checkbox, to the value otherwise |
| AuthForm.InputChangesCompose | pictory-ai-clone/src/components/auth/AuthForm.tsx:66-72 | of two events on one field the later wins, and events on different fields commute |
| AuthForm.ToggleMode | pictory-ai-clone/src/components/auth/AuthForm.tsx:302 | the mode always changes |
| AuthForm.ToggleModeInvolution | pictory-ai-clone/src/components/auth/AuthForm.tsx:302 | toggling twice restores the mode |
| AuthForm.OnSuccess | pictory-ai-clone/src/components/auth/AuthForm.tsx:41-44 | with a callback the effects are exactly the callback then navigation to "/dashboard"; without one, exactly the navigation |
| AuthForm.Submit | pictory-ai-clone/src/components/auth/AuthForm.tsx:27-56 | without accepted terms sign-up calls nothing and only clears the error; sign-up passes the fields unchanged; sign-in passes rememberMe false; the resulting state is the called flow's, started from a cleared error, so a failed attempt keeps the user and the documents; navigating implies authenticated; the error is cleared unless the called flow reports one |
| AuthForm.SubmitNavigatesIffSignedIn | pictory-ai-clone/src/components/auth/AuthForm.tsx:27-56 | in sign-in mode a submit navigates exactly when the provider accepts and get-or-create succeeds; in sign-up mode exactly when the terms are accepted and account creation, renaming and get-or-create succeed |
| AuthForm.GoogleSignIn | pictory-ai-clone/src/components/auth/AuthForm.tsx:58-64 | the Google flow is the one called; navigation happens exactly when the popup and get-or-create succeed; otherwise the user is kept and an error is shown |
| Dashboard.ShownLimitsMatchCatalog | pictory-ai-clone/src/app/dashboard/page.tsx:164-219 | for every plan the limits hard-coded in the usage cards equal the catalog's monthly limits, with storage in GB times 1024 |

## Left out

- The identity provider, the document store and the OAuth popup are not modelled; each call is an input saying how it ended.
- `lib/firebase/config.ts` is not part of this model: it is configuration and SDK wiring.
- Asynchronous interleavings are not modelled; each flow is one atomic step. Examples are the session listener firing during a sign-up, or a late sign-in completing after a sign-out.
- Timestamps are opaque: a written `serverTimestamp()` stays the constant `ServerTimestamp` in the stored document and in the user returned from it. The document store replaces it by the commit time when the document is read back.
- The hook-local error lives beside the store state. React re-rendering and the `clearError` callback's identity are not modelled.
- Environment-variable overrides of the price ids are not modelled; the literal fallback ids are used.
- Plans.DiscountAmount: stated with exact rational rounding, not JavaScript floating point, and the two can differ when the exact percentage is a half. For example, `getDiscountAmount(10, 51)` computes 57.49999999999999 and gives 57, where the model gives 58. A monthly price of 0 is excluded by its precondition. In the source it gives NaN when the yearly price is also 0, and an infinity otherwise.
- Plans.FormatPrice: covers whole-cent prices, printed exactly. The source divides by 100 in double precision, which agrees only while the magnitude is at most 2^46 * 100 cents (7036874417766400). Above that the double is coarser than a cent: 7036874417766401 cents prints as ".02" in the source and ".01" here. `toFixed`'s exponent notation for 10^21 and above is not modelled either.
- Auth.UpdateUserProfile: the document store merges nested objects key by key; here a supplied nested object (subscription, usage, brand kit) replaces the stored one.
- Auth.UpdateUserProfile: requires that the store's user carries a uid. `Auth.InitialAuthKeepsInvariant`, `Auth.SignInFlowsKeepUid` and `Auth.SessionFlowsKeepUid` show that the initial state and every state the flows produce meet this. A user without a uid would make the source build an invalid document path.
- Patches with keys explicitly set to `undefined` are not modelled. A key is either present with a value or absent. The store's rejection of `undefined` values is modelled only for the new user's `photoURL`, in `Auth.GetOrCreateAsWritten`.
- Auth.GetOrCreate: models the evidently intended behaviour, where a user without a photo is stored without the key. As written, the source writes `photoURL: undefined` and the document store refuses that write. So every email sign-up fails, and so does the first sign-in of an identity without a photo. Both show the generic message. `Auth.GetOrCreateAsWritten` and `Auth.EmailSignUpRefusedAsWritten` state this. The flows use the corrected definition, so their contracts describe the intended behaviour and not this failure.
- Auth.GetOrCreateIdempotent: the "same user" is equal only up to the four server-time fields: `createdAt`, `updatedAt`, `subscription.currentPeriodEnd` and `usage.lastReset`. The first call returns the unresolved `serverTimestamp()` placeholders. A later read returns the commit time in their place.
- Identities without an email are not modelled. The source asserts the email with `!`.
- The `if (!firebaseUser) return;` guard in `createUserDocument` is not modelled: the providers always yield a user.
- Console logging in the catch blocks is not modelled.
- The dashboard's percentage bars and GB rounding are floating-point display, and are not modelled.
- The landing page, layouts and all JSX markup are presentation only.
- The password-visibility toggle is presentation only.
- The organisation, AI request and API response types are not used by the modelled code.
- Feature descriptions are display text.
- zustand's devtools wrapper and the selector hooks only read state.
- AuthForm.HandleInputChange: requires that only the terms field is a checkbox, as the markup renders it. JavaScript would otherwise store a boolean in a text field or a string in the flag.

## Findings

| source | as written | input that shows it | evidently intended | confidence | as-written member | corrected member |
|---|---|---|---|---|---|---|
| pictory-ai-clone/src/hooks/useAuth.ts:35 | the new user's record carries `photoURL: photoURL \|\| undefined`, and the document store, which does not ignore undefined properties, refuses the whole write | email sign-up of uid "u1", email "a@b.com", no photo, display name "Ann" | omit `photoURL` when the identity has none, so the document is written and the user is signed up | not executed | Auth.GetOrCreateAsWritten, Auth.EmailSignUpRefusedAsWritten | Auth.GetOrCreate, Auth.NewUserExample |

=== FILE: auth.dfy ===
/**
  Session and profile synchronisation (hooks/useAuth.ts). The identity
  provider and the document store are abstracted: each provider call is an
  input saying how it ended, and each flow is one atomic step from the state
  before it to the state after it. The hook-local error message lives beside
  the application state; the document store is a map from uid to document.
*/
module Auth {
  import opened Common
  import opened Types
  import opened Store

  // ---------------------------------------------------------------------------
  // Error messages
  // ---------------------------------------------------------------------------

  /** The provider error codes that have a message of their own. */
  datatype AuthCode =
    | UserNotFound | WrongPassword | EmailAlreadyInUse | WeakPassword | InvalidEmail
    | TooManyRequests | NetworkRequestFailed | PopupClosedByUser | CancelledPopupRequest

  /** The code string the provider reports. */
  function CodeTag(c: AuthCode): string {
    match c
    case UserNotFound => "auth/user-not-found"
    case WrongPassword => "auth/wrong-password"
    case EmailAlreadyInUse => "auth/email-already-in-use"
    case WeakPassword => "auth/weak-password"
    case InvalidEmail => "auth/invalid-email"
    case TooManyRequests => "auth/too-many-requests"
    case NetworkRequestFailed => "auth/network-request-failed"
    case PopupClosedByUser => "auth/popup-closed-by-user"
    case CancelledPopupRequest => "auth/cancelled-popup-request"
  }

  /** The fixed message `getAuthErrorMessage` gives a known code. */
  function KnownMessage(c: AuthCode): string {
    match c
    case UserNotFound => "No account found with this email address."
    case WrongPassword => "Incorrect password. Please try again."
    case EmailAlreadyInUse => "An account with this email already exists."
    case WeakPassword => "Password should be at least 6 characters long."
    case InvalidEmail => "Please enter a valid email address."
    case TooManyRequests => "Too many failed attempts. Please try again later."
    case NetworkRequestFailed => "Network error. Please check your connection."
    case PopupClosedByUser => "Sign-in was cancelled. Please try again."
    case CancelledPopupRequest => "Another sign-in attempt is in progress."
  }

  /** The message for every other code. */
  const GenericAuthError := "An error occurred during authentication. Please try again."

  /** The length and sixth character of each code string, which tell the nine apart. */
  lemma TagKey(c: AuthCode)
    ensures |CodeTag(c)| > 5
    ensures c.UserNotFound? ==> |CodeTag(c)| == 19 && CodeTag(c)[5] == 'u'
    ensures c.WrongPassword? ==> |CodeTag(c)| == 19 && CodeTag(c)[5] == 'w'
    ensures c.EmailAlreadyInUse? ==> |CodeTag(c)| == 25 && CodeTag(c)[5] == 'e'
    ensures c.WeakPassword? ==> |CodeTag(c)| == 18 && CodeTag(c)[5] == 'w'
    ensures c.InvalidEmail? ==> |CodeTag(c)| == 18 && CodeTag(c)[5] == 'i'
    ensures c.TooManyRequests? ==> |CodeTag(c)| == 22
    ensures c.NetworkRequestFailed? ==> |CodeTag(c)| == 27
    ensures c.PopupClosedByUser? ==> |CodeTag(c)| == 25 && CodeTag(c)[5] == 'p'
    ensures c.CancelledPopupRequest? ==> |CodeTag(c)| == 28
  {
  }

  /** Different known codes have different code strings. */
  lemma CodeTagInjective(c1: AuthCode, c2: AuthCode)
    ensures CodeTag(c1) == CodeTag(c2) ==> c1 == c2
  {
    TagKey(c1);
    TagKey(c2);
  }

  /** Recognises a known code string; `None` for every other string. */
  function AuthCodeFromTag(code: string): (r: Option<AuthCode>)
    ensures r.Some? ==> CodeTag(r.value) == code
    ensures r.None? ==> forall c :: CodeTag(c) != code
  {
    if code == CodeTag(UserNotFound) then Some(UserNotFound)
    else if code == CodeTag(WrongPassword) then Some(WrongPassword)
    else if code == CodeTag(EmailAlreadyInUse) then Some(EmailAlreadyInUse)
    else if code == CodeTag(WeakPassword) then Some(WeakPassword)
    else if code == CodeTag(InvalidEmail) then Some(InvalidEmail)
    else if code == CodeTag(TooManyRequests) then Some(TooManyRequests)
    else if code == CodeTag(NetworkRequestFailed) then Some(NetworkRequestFailed)
    else if code == CodeTag(PopupClosedByUser) then Some(PopupClosedByUser)
    else if code == CodeTag(CancelledPopupRequest) then Some(CancelledPopupRequest)
    else None
  }

  /** The length of each fixed message; the ten messages have ten different lengths. */
  function MessageLen(c: AuthCode): nat {
    match c
    case UserNotFound => 41
    case WrongPassword => 37
    case EmailAlreadyInUse => 42
    case WeakPassword => 46
    case InvalidEmail => 35
    case TooManyRequests => 49
    case NetworkRequestFailed => 44
    case PopupClosedByUser => 40
    case CancelledPopupRequest => 39
  }

  lemma MessageLength(c: AuthCode)
    ensures |KnownMessage(c)| == MessageLen(c)
  {
    match c
    case UserNotFound =>
    case WrongPassword =>
    case EmailAlreadyInUse =>
    case WeakPassword =>
    case InvalidEmail =>
    case TooManyRequests =>
    case NetworkRequestFailed =>
    case PopupClosedByUser =>
    case CancelledPopupRequest =>
  }

  /** Distinct known codes have messages of distinct lengths, none as long as the generic one. */
  lemma MessageLenInjective(c1: AuthCode, c2: AuthCode)
    ensures c1 != c2 ==> MessageLen(c1) != MessageLen(c2)
    ensures MessageLen(c1) != |GenericAuthError|
  {
    assert |GenericAuthError| == 58;
  }

  /** `getAuthErrorMessage`: total; a known code gets its fixed message, every other code the generic one. */
  function AuthErrorMessage(code: string): (m: string)
    ensures forall c :: CodeTag(c) == code ==> m == KnownMessage(c)
    ensures (forall c :: CodeTag(c) != code) ==> m == GenericAuthError
  {
    match AuthCodeFromTag(code)
    case Some(c) =>
      (forall c' | CodeTag(c') == code ensures c' == c { CodeTagInjective(c, c'); }
      KnownMessage(c))
    case None => GenericAuthError
  }

  /**
    The message tells the known codes apart: two codes with the same message
    are the same code or both unknown, and no known code gets the generic text.
  */
  lemma AuthErrorMessageIdentifiesCode(code1: string, code2: string)
    ensures AuthCodeFromTag(code1).Some? ==> AuthErrorMessage(code1) != GenericAuthError
    ensures AuthErrorMessage(code1) == AuthErrorMessage(code2) ==>
      code1 == code2 || (AuthCodeFromTag(code1).None? && AuthCodeFromTag(code2).None?)
  {
    var r1 := AuthCodeFromTag(code1);
    var r2 := AuthCodeFromTag(code2);
    if r1.Some? {
      MessageLength(r1.value);
      MessageLenInjective(r1.value, r1.value);
      if r2.Some? {
        MessageLength(r2.value);
        MessageLenInjective(r1.value, r2.value);
      }
    }
    if r2.Some? {
      MessageLength(r2.value);
      MessageLenInjective(r2.value, r2.value);
    }
  }

  // ---------------------------------------------------------------------------
  // Get-or-create of the user document
  // ---------------------------------------------------------------------------

  /**
    What the identity provider reports about a signed-in user. An empty
    `displayName` or `photoURL` stands for a missing one. Every identity the
    flows see has an email.
  */
  datatype Identity = Identity(uid: string, email: string, displayName: string, photoURL: string)

  /** How the document store's calls of one flow end: a fault for the read and for the write, if any. */
  datatype DocIo = DocIo(read: Option<Fault>, write: Option<Fault>)

  /** The resolved user, the document store afterwards, and how many documents were written. */
  datatype Fetched = Fetched(user: User, docs: map<string, User>, writes: nat)

  /** The text of an email before its first '@' (all of it when there is none): `email.split('@')[0]`. */
  function LocalPart(email: string): (r: string)
    ensures '@' !in r
    ensures r <= email
    ensures |r| < |email| ==> email[|r|] == '@'
  {
    match SplitAt(email, '@')
    case None => email
    case Some(parts) => parts.0
  }

  /** The local part of "local@domain" is `local`. */
  lemma LocalPartOf(local: string, domain: string)
    requires '@' !in local
    ensures LocalPart(local + "@" + domain) == local
  {
    SplitAtFirst(local, '@', domain);
  }

  /** `{uid}`: the record with only the uid key. */
  function UidOnly(uid: string): User {
    NoFields.(uid := Some(uid))
  }

  /** The document written for a first-time user, before `additionalData` is spread over it. */
  function NewUserData(id: Identity): User {
    User(
      uid := None,
      email := Some(id.email),
      displayName := Some(if id.displayName != "" then id.displayName else LocalPart(id.email)),
      photoURL := if id.photoURL != "" then Some(id.photoURL) else None,
      subscription := Some(SubscriptionInfo(Free, Active, ServerTimestamp, "", None)),
      usage := Some(UsageInfo(0, 0, 0, ServerTimestamp)),
      brandKit := Some(BrandKit(None, [], [], [])),
      createdAt := Some(ServerTimestamp),
      updatedAt := Some(ServerTimestamp))
  }

  /** A stored document with every key of `User` except the uid, which the reader adds. */
  predicate IsCompleteDoc(d: User) {
    IsComplete(d.(uid := Some("")))
  }

  ghost predicate DocsComplete(docs: map<string, User>) {
    forall k :: k in docs ==> IsCompleteDoc(docs[k])
  }

  /**
    `createUserDocument`: read the document keyed by the uid; when absent,
    build the default record, spread `extra` over it and write it once;
    when present, return it with the uid and write nothing. A failing read
    or write is the flow's failure.
  */
  function GetOrCreate(docs: map<string, User>, id: Identity, extra: User, io: DocIo): (r: Result<Fetched>)
    ensures io.read.Some? ==> r == Err(io.read.value)
    ensures r.Err? <==> io.read.Some? || (id.uid !in docs && io.write.Some?)
    ensures io.read.None? && id.uid !in docs && io.write.Some? ==> r == Err(io.write.value)
    ensures r.Ok? && id.uid in docs ==>
      r.value.writes == 0 && r.value.docs == docs && r.value.user == SpreadUser(UidOnly(id.uid), docs[id.uid])
    ensures r.Ok? && id.uid !in docs ==>
      && r.value.writes == 1
      && r.value.docs.Keys == docs.Keys + {id.uid}
      && (forall k :: k in docs ==> r.value.docs[k] == docs[k])
      && SpreadUser(UidOnly(id.uid), r.value.docs[id.uid]) == r.value.user
    ensures r.Ok? && DocsComplete(docs) ==> IsComplete(r.value.user) && DocsComplete(r.value.docs)
  {
    if io.read.Some? then Err(io.read.value)
    else if id.uid in docs then Ok(Fetched(SpreadUser(UidOnly(id.uid), docs[id.uid]), docs, 0))
    else
      var data := SpreadUser(NewUserData(id), extra);
      if io.write.Some? then Err(io.write.value)
      else Ok(Fetched(SpreadUser(UidOnly(id.uid), data), docs[id.uid := data], 1))
  }

  /**
    A first-time user gets the default record: display name from the identity
    or else the email's local part, plan free and active with no customer id,
    zero usage, an empty brand kit; keys of `extra` override those defaults.
  */
  lemma NewUserDefaults(docs: map<string, User>, id: Identity, extra: User, io: DocIo)
    requires id.uid !in docs && io.read.None? && io.write.None?
    ensures GetOrCreate(docs, id, extra, io).Ok?
    ensures var u := GetOrCreate(docs, id, extra, io).value.user;
      && u.uid == Over(Some(id.uid), extra.uid)
      && u.email == Over(Some(id.email), extra.email)
      && u.displayName == Over(Some(if id.displayName != "" then id.displayName else LocalPart(id.email)), extra.displayName)
      && u.subscription == Over(Some(SubscriptionInfo(Free, Active, ServerTimestamp, "", None)), extra.subscription)
      && u.usage == Over(Some(UsageInfo(0, 0, 0, ServerTimestamp)), extra.usage)
      && u.brandKit == Over(Some(BrandKit(None, [], [], [])), extra.brandKit)
      && IsComplete(u)
  {
  }

  /** The worked example: "u1" with email "a@b.com" and no name becomes "a" on the free plan. */
  lemma NewUserExample()
    ensures var r := GetOrCreate(map[], Identity("u1", "a@b.com", "", ""), NoFields, DocIo(None, None));
      && r.Ok? && r.value.writes == 1
      && r.value.user.displayName == Some("a")
      && r.value.user.subscription.Some? && r.value.user.subscription.value.plan == Free
      && r.value.user.usage.Some? && r.value.user.usage.value.imagesGenerated == 0
  {
    LocalPartOf("a", "b.com");
    assert "a" + "@" + "b.com" == "a@b.com";
  }

  /**
    Get-or-create is idempotent: once it has succeeded, a second call for the
    same uid whose read succeeds writes nothing and returns the same user,
    whatever `extra` it is given.
  */
  lemma GetOrCreateIdempotent(docs: map<string, User>, id: Identity, extra1: User, io1: DocIo, extra2: User, io2: DocIo)
    requires GetOrCreate(docs, id, extra1, io1).Ok? && io2.read.None?
    ensures var first := GetOrCreate(docs, id, extra1, io1).value;
      GetOrCreate(first.docs, id, extra2, io2) == Ok(Fetched(first.user, first.docs, 0))
  {
  }

  /**
    The document store's refusal of a record that holds an `undefined`
    value, which it raises before any write when undefined properties are
    not ignored.
  */
  const UndefinedFieldFault := Fault("invalid-argument", "Unsupported field value: undefined (found in field photoURL)")

  /**
    Whether a first-time user's record would hold `photoURL: undefined`:
    the identity has no photo and `extra` does not supply one.
  */
  predicate WritesUndefinedPhoto(id: Identity, extra: User) {
    id.photoURL == "" && extra.photoURL.None?
  }

  /**
    `createUserDocument` as written: the record for a photo-less first-time
    user keeps the key `photoURL` with the value `undefined`, so the store
    refuses the write and the flow fails; every other call behaves as
    `GetOrCreate`.
  */
  function GetOrCreateAsWritten(docs: map<string, User>, id: Identity, extra: User, io: DocIo): (r: Result<Fetched>)
    ensures io.read.None? && id.uid !in docs && WritesUndefinedPhoto(id, extra) ==> r == Err(UndefinedFieldFault)
    ensures r.Err? <==> io.read.Some? || (id.uid !in docs && (io.write.Some? || WritesUndefinedPhoto(id, extra)))
    ensures r.Ok? ==> r == GetOrCreate(docs, id, extra, io)
  {
    if io.read.None? && id.uid !in docs && WritesUndefinedPhoto(id, extra) then Err(UndefinedFieldFault)
    else GetOrCreate(docs, id, extra, io)
  }

  /**
    The discrepancy: an email sign-up ("u1", "a@b.com", no photo, with the
    form's display name as `extra`) fails as written and the form shows the
    generic message, while the corrected `GetOrCreate` stores the user.
  */
  lemma EmailSignUpRefusedAsWritten()
    ensures var id := Identity("u1", "a@b.com", "", "");
      var extra := NoFields.(displayName := Some("Ann"));
      && GetOrCreateAsWritten(map[], id, extra, DocIo(None, None)) == Err(UndefinedFieldFault)
      && AuthErrorMessage(UndefinedFieldFault.code) == GenericAuthError
      && GetOrCreate(map[], id, extra, DocIo(None, None)).Ok?
  {
    forall c: AuthCode ensures CodeTag(c) != UndefinedFieldFault.code {
      TagKey(c);
    }
  }

  // ---------------------------------------------------------------------------
  // Flows
  // ---------------------------------------------------------------------------

  /**
    Everything a flow can touch: the application state, the hook's error
    message, the document store and the provider's current identity.
  */
  datatype AuthState = AuthState(app: AppState, authError: Option<string>, docs: map<string, User>, current: Option<Identity>)

  /** `{ success: true }` or `{ success: false, error }`. */
  datatype FlowResult = Succeeded | Unsuccessful(error: string)

  datatype Step = Step(state: AuthState, result: FlowResult)

  /** The start of the sign-in flows: clear the error, show loading. */
  function Begin(s: AuthState): AuthState {
    s.(authError := None, app := SetLoading(s.app, true))
  }

  /** The catch and finally blocks: the mapped message is stored and returned, loading ends. */
  function Fail(s: AuthState, code: string): Step {
    var msg := AuthErrorMessage(code);
    Step(s.(authError := Some(msg), app := SetLoading(s.app, false)), Unsuccessful(msg))
  }

  /** Resolve the signed-in identity to a user and publish it; any failure goes to `Fail`. */
  function Finish(s: AuthState, id: Identity, extra: User, io: DocIo): Step {
    match GetOrCreate(s.docs, id, extra, io)
    case Err(f) => Fail(s, f.code)
    case Ok(got) => Step(s.(app := SetLoading(SetUser(s.app, Some(got.user)), false), docs := got.docs), Succeeded)
  }

  /** The flow changed neither the UI state nor the data collections. */
  predicate KeepsStoreData(s: AuthState, t: AuthState) {
    t.app.ui == s.app.ui && SameData(s.app, t.app)
  }

  /** The get-or-create of `signUp`: the renamed identity, with `{displayName}` as extra data. */
  function SignUpDocument(docs: map<string, User>, form: SignUpForm, id: Identity, io: DocIo): Result<Fetched> {
    GetOrCreate(docs, id.(displayName := form.displayName), NoFields.(displayName := Some(form.displayName)), io)
  }

  /**
    `signUp`: create the account, set its display name, get-or-create the
    document with `{displayName}` as extra data, publish the user. Any
    provider or store failure leaves the user as it was and reports the
    mapped message. The hook itself does not look at `agreeToTerms`.
  */
  function SignUp(s: AuthState, form: SignUpForm, account: Result<Identity>, rename: Option<Fault>, io: DocIo): (r: Step)
    ensures !r.state.app.isLoading && KeepsStoreData(s, r.state)
    ensures r.result.Unsuccessful? ==>
      && r.state.app.user == s.app.user && r.state.app.isAuthenticated == s.app.isAuthenticated
      && r.state.authError == Some(r.result.error)
    ensures account.Err? ==>
      r.result == Unsuccessful(AuthErrorMessage(account.fault.code)) && r.state.docs == s.docs && r.state.current == s.current
    ensures account.Ok? && rename.Some? ==>
      r.result == Unsuccessful(AuthErrorMessage(rename.value.code)) && r.state.docs == s.docs
    ensures r.result.Succeeded? ==>
      && account.Ok? && r.state.app.user.Some? && r.state.app.isAuthenticated && r.state.authError.None?
      && r.state.current == Some(account.value.(displayName := form.displayName))
    ensures account.Ok? && rename.None? && SignUpDocument(s.docs, form, account.value, io).Err? ==>
      r.result == Unsuccessful(AuthErrorMessage(SignUpDocument(s.docs, form, account.value, io).fault.code))
      && r.state.docs == s.docs
    ensures r.result.Succeeded? <==>
      account.Ok? && rename.None? && SignUpDocument(s.docs, form, account.value, io).Ok?
    ensures r.result.Succeeded? ==>
      && r.state.app.user == Some(SignUpDocument(s.docs, form, account.value, io).value.user)
      && r.state.docs == SignUpDocument(s.docs, form, account.value, io).value.docs
    ensures r.result.Succeeded? && account.value.uid !in s.docs ==>
      r.state.app.user.value.displayName == Some(form.displayName) && account.value.uid in r.state.docs
  {
    var s0 := Begin(s);
    match account
    case Err(f) => Fail(s0, f.code)
    case Ok(id) =>
      var s1 := s0.(current := Some(id));
      if rename.Some? then Fail(s1, rename.value.code)
      else
        var renamed := id.(displayName := form.displayName);
        Finish(s1.(current := Some(renamed)), renamed, NoFields.(displayName := Some(form.displayName)), io)
  }

  /** The common contract of the two sign-in flows. */
  ghost predicate SignInContract(s: AuthState, account: Result<Identity>, io: DocIo, r: Step) {
    && !r.state.app.isLoading && KeepsStoreData(s, r.state)
    && (r.result.Unsuccessful? ==>
        && r.state.app.user == s.app.user && r.state.app.isAuthenticated == s.app.isAuthenticated
        && r.state.authError == Some(r.result.error) && r.state.docs == s.docs)
    && (account.Err? ==> r.result == Unsuccessful(AuthErrorMessage(account.fault.code)) && r.state.current == s.current)
    && (account.Ok? && io.read.Some? ==> r.result == Unsuccessful(AuthErrorMessage(io.read.value.code)))
    && (account.Ok? && GetOrCreate(s.docs, account.value, NoFields, io).Err? ==>
        r.result == Unsuccessful(AuthErrorMessage(GetOrCreate(s.docs, account.value, NoFields, io).fault.code)))
    && (r.result.Succeeded? <==> account.Ok? && GetOrCreate(s.docs, account.value, NoFields, io).Ok?)
    && (r.result.Succeeded? ==>
        && r.state.app.user == Some(GetOrCreate(s.docs, account.value, NoFields, io).value.user)
        && r.state.app.isAuthenticated && r.state.authError.None?
        && r.state.current == Some(account.value)
        && r.state.docs == GetOrCreate(s.docs, account.value, NoFields, io).value.docs)
    // an existing profile is read, never overwritten
    && (r.result.Succeeded? && account.value.uid in s.docs ==> r.state.docs == s.docs)
  }

  /** `signIn`: authenticate, get-or-create without extra data, publish the user. */
  function SignIn(s: AuthState, account: Result<Identity>, io: DocIo): (r: Step)
    ensures SignInContract(s, account, io, r)
  {
    var s0 := Begin(s);
    match account
    case Err(f) => Fail(s0, f.code)
    case Ok(id) => Finish(s0.(current := Some(id)), id, NoFields, io)
  }

  /**
    `signInWithGoogle`: the popup's outcome replaces the password check;
    closing the popup is the code "auth/popup-closed-by-user".
  */
  function SignInWithGoogle(s: AuthState, popup: Result<Identity>, io: DocIo): (r: Step)
    ensures SignInContract(s, popup, io, r)
  {
    SignIn(s, popup, io)
  }

  /** `signOut`: the user is cleared only once the provider has signed out; a failure keeps it. */
  function SignOut(s: AuthState, outcome: Option<Fault>): (r: Step)
    ensures KeepsStoreData(s, r.state) && r.state.docs == s.docs
    ensures outcome.None? ==>
      r.result == Succeeded && r.state.app.user.None? && !r.state.app.isAuthenticated
      && !r.state.app.isLoading && r.state.current.None? && r.state.authError == s.authError
    ensures outcome.Some? ==>
      && r.result == Unsuccessful(AuthErrorMessage(outcome.value.code))
      && r.state.authError == Some(AuthErrorMessage(outcome.value.code))
      && r.state.app == s.app && r.state.current == s.current
  {
    match outcome
    case None => Step(s.(app := SetUser(s.app, None), current := None), Succeeded)
    case Some(f) =>
      var msg := AuthErrorMessage(f.code);
      Step(s.(authError := Some(msg)), Unsuccessful(msg))
  }

  /** `resetPassword`: only the hook's error message changes. */
  function ResetPassword(s: AuthState, outcome: Option<Fault>): (r: Step)
    ensures r.state == s.(authError := r.state.authError)
    ensures outcome.None? ==> r.result == Succeeded && r.state.authError.None?
    ensures outcome.Some? ==>
      r.result == Unsuccessful(AuthErrorMessage(outcome.value.code)) && r.state.authError == Some(r.result.error)
  {
    match outcome
    case None => Step(s.(authError := None), Succeeded)
    case Some(f) =>
      var msg := AuthErrorMessage(f.code);
      Step(s.(authError := Some(msg)), Unsuccessful(msg))
  }

  /** The user the application state holds carries its uid. */
  predicate UserHasUid(s: AuthState) {
    s.app.user.Some? ==> s.app.user.value.uid.Some?
  }

  /** `{...existing, ...updates, updatedAt: serverTimestamp()}` written with `merge: true`. */
  function MergeDoc(docs: map<string, User>, key: string, updates: User): User {
    var existing := if key in docs then docs[key] else NoFields;
    SpreadUser(existing, SpreadUser(updates, NoFields.(updatedAt := Some(ServerTimestamp))))
  }

  /**
    `updateUserProfile`: with no user it fails with "No user logged in" and
    touches nothing; otherwise it merges the updates into the user's document
    and, once that write succeeded, into the published user. A failed write
    reports the store's own message, not a mapped one.
  */
  function UpdateUserProfile(s: AuthState, updates: User, write: Option<Fault>): (r: Step)
    requires UserHasUid(s)
    ensures s.app.user.None? ==> r == Step(s, Unsuccessful("No user logged in"))
    ensures KeepsStoreData(s, r.state) && r.state.current == s.current
    ensures s.app.user.Some? && write.Some? ==>
      r == Step(s.(authError := Some(write.value.message)), Unsuccessful(write.value.message))
    ensures s.app.user.Some? && write.None? ==>
      && r.result == Succeeded
      && r.state.app.user == Some(SpreadUser(s.app.user.value, updates))
      && r.state.app.isAuthenticated && !r.state.app.isLoading && r.state.authError == s.authError
      && r.state.docs.Keys == s.docs.Keys + {s.app.user.value.uid.value}
      && (forall k :: k in s.docs && k != s.app.user.value.uid.value ==> r.state.docs[k] == s.docs[k])
  {
    match s.app.user
    case None => Step(s, Unsuccessful("No user logged in"))
    case Some(u) =>
      if write.Some? then Step(s.(authError := Some(write.value.message)), Unsuccessful(write.value.message))
      else
        var key := u.uid.value;
        Step(s.(docs := s.docs[key := MergeDoc(s.docs, key, updates)], app := SetUser(s.app, Some(SpreadUser(u, updates)))), Succeeded)
  }

  /** One key of a merge write: the update's value when it supplies the key, else the stored one (absent when nothing is stored). */
  predicate TakesOrKeeps<T(==)>(stored: Option<T>, update: Option<T>, written: Option<T>) {
    (update.Some? ==> written == update) && (update.None? ==> written == stored)
  }

  /**
    A merged document takes every key the update supplies and keeps every
    stored key it omits, key by key; `updatedAt` is always the server time,
    even when the update carries one.
  */
  lemma UpdateUserProfileMerges(s: AuthState, updates: User)
    requires UserHasUid(s) && s.app.user.Some?
    ensures var key := s.app.user.value.uid.value;
      var stored := if key in s.docs then s.docs[key] else NoFields;
      var d := UpdateUserProfile(s, updates, None).state.docs[key];
      && TakesOrKeeps(stored.uid, updates.uid, d.uid)
      && TakesOrKeeps(stored.email, updates.email, d.email)
      && TakesOrKeeps(stored.displayName, updates.displayName, d.displayName)
      && TakesOrKeeps(stored.photoURL, updates.photoURL, d.photoURL)
      && TakesOrKeeps(stored.subscription, updates.subscription, d.subscription)
      && TakesOrKeeps(stored.usage, updates.usage, d.usage)
      && TakesOrKeeps(stored.brandKit, updates.brandKit, d.brandKit)
      && TakesOrKeeps(stored.createdAt, updates.createdAt, d.createdAt)
      && d.updatedAt == Some(ServerTimestamp)
  {
  }

  /**
    `refreshUserData`: with a signed-in identity and a successful read of an
    existing document, publish that document with the uid; in every other
    case (no identity, failed read, no document) nothing changes.
  */
  function RefreshUserData(s: AuthState, read: Option<Fault>): (r: AuthState)
    ensures KeepsStoreData(s, r) && r.docs == s.docs && r.current == s.current && r.authError == s.authError
    ensures s.current.None? || read.Some? || s.current.value.uid !in s.docs ==> r == s
    ensures s.current.Some? && read.None? && s.current.value.uid in s.docs ==>
      r.app.user == Some(SpreadUser(UidOnly(s.current.value.uid), s.docs[s.current.value.uid]))
      && r.app.isAuthenticated && !r.app.isLoading
  {
    match s.current
    case None => s
    case Some(id) =>
      if read.Some? || id.uid !in s.docs then s
      else s.(app := SetUser(s.app, Some(SpreadUser(UidOnly(id.uid), s.docs[id.uid]))))
  }

  /**
    The `onAuthStateChanged` handler: a signed-out session clears the user, a
    signed-in one publishes the get-or-create result, and a failure of that
    clears the user too; loading is over in every case.
  */
  function SessionChanged(s: AuthState, identity: Option<Identity>, io: DocIo): (r: AuthState)
    ensures !r.app.isLoading && KeepsStoreData(s, r) && r.authError == s.authError && r.current == identity
    ensures r.app.isAuthenticated <==> r.app.user.Some?
    ensures identity.None? ==> r.app.user.None? && r.docs == s.docs
    ensures identity.Some? && GetOrCreate(s.docs, identity.value, NoFields, io).Err? ==> r.app.user.None? && r.docs == s.docs
    ensures identity.Some? && GetOrCreate(s.docs, identity.value, NoFields, io).Ok? ==>
      && r.app.user == Some(GetOrCreate(s.docs, identity.value, NoFields, io).value.user)
      && r.docs == GetOrCreate(s.docs, identity.value, NoFields, io).value.docs
  {
    var s0 := s.(current := identity);
    match identity
    case None => s0.(app := SetLoading(SetUser(s0.app, None), false))
    case Some(id) =>
      match GetOrCreate(s0.docs, id, NoFields, io)
      case Err(_) => s0.(app := SetLoading(SetUser(s0.app, None), false))
      case Ok(got) => s0.(app := SetLoading(SetUser(s0.app, Some(got.user)), false), docs := got.docs)
  }

  /** The worked example: a wrong password leaves a signed-in user signed in and shows the fixed message. */
  lemma WrongPasswordExample(s: AuthState, io: DocIo)
    ensures var r := SignIn(s, Err(Fault("auth/wrong-password", "")), io);
      && r.result == Unsuccessful("Incorrect password. Please try again.")
      && r.state.app.user == s.app.user
  {
    assert CodeTag(WrongPassword) == "auth/wrong-password";
  }

  // ---------------------------------------------------------------------------
  // The invariant the flows keep
  // ---------------------------------------------------------------------------

  /**
    Every stored document has all keys but the uid, the published user has
    them all, and authentication agrees with the presence of a user.
  */
  ghost predicate Invariant(s: AuthState) {
    && DocsComplete(s.docs)
    && (s.app.user.Some? ==> IsComplete(s.app.user.value))
    && (s.app.isAuthenticated <==> s.app.user.Some?)
  }

  /** The state before any flow: the store's initial state, no error, no documents, no identity. */
  const InitialAuth := AuthState(Initial, None, map[], None)

  /** The state before any flow meets the invariant. */
  lemma InitialAuthKeepsInvariant()
    ensures Invariant(InitialAuth) && UserHasUid(InitialAuth)
  {
  }

  lemma InvariantGivesUid(s: AuthState)
    requires Invariant(s)
    ensures UserHasUid(s)
  {
  }

  /** The sign-in flows keep the invariant. */
  lemma SignInFlowsKeepInvariant(s: AuthState, form: SignUpForm, account: Result<Identity>, rename: Option<Fault>, io: DocIo)
    requires Invariant(s)
    ensures Invariant(SignUp(s, form, account, rename, io).state)
    ensures Invariant(SignIn(s, account, io).state)
  {
  }

  /** Signing out, resetting a password and refreshing keep the invariant. */
  lemma SessionFlowsKeepInvariant(s: AuthState, outcome: Option<Fault>, identity: Option<Identity>, io: DocIo)
    requires Invariant(s)
    ensures Invariant(SignOut(s, outcome).state)
    ensures Invariant(ResetPassword(s, outcome).state)
    ensures Invariant(RefreshUserData(s, outcome))
    ensures Invariant(SessionChanged(s, identity, io))
  {
  }

  /**
    A profile update keeps the invariant when the user's document exists. It
    need not otherwise: a merge write creates the document with only the
    supplied keys (see `UpdateWithoutDocumentLeavesPartialDocument`).
  */
  lemma UpdateUserProfileKeepsInvariant(s: AuthState, updates: User, write: Option<Fault>)
    requires Invariant(s) && s.app.user.Some? && s.app.user.value.uid.value in s.docs
    ensures Invariant(UpdateUserProfile(s, updates, write).state)
  {
    var key := s.app.user.value.uid.value;
    var d := MergeDoc(s.docs, key, updates);
    assert IsCompleteDoc(d);
  }

  /** Without the document, a profile update that names no key leaves a document without an email. */
  lemma UpdateWithoutDocumentLeavesPartialDocument(s: AuthState)
    requires Invariant(s) && s.app.user.Some? && s.app.user.value.uid.value !in s.docs
    ensures !Invariant(UpdateUserProfile(s, NoFields, None).state)
  {
    var key := s.app.user.value.uid.value;
    var r := UpdateUserProfile(s, NoFields, None).state;
    assert r.docs[key].email.None?;
    assert !IsCompleteDoc(r.docs[key]);
  }

  /**
    Every flow keeps a published user's uid, whether or not the invariant
    holds: get-or-create and refresh put the uid first under the document,
    and a profile update keeps it unless the update supplies its own.
  */
  lemma SignInFlowsKeepUid(s: AuthState, form: SignUpForm, account: Result<Identity>, rename: Option<Fault>, io: DocIo)
    requires UserHasUid(s)
    ensures UserHasUid(SignUp(s, form, account, rename, io).state)
    ensures UserHasUid(SignIn(s, account, io).state)
    ensures UserHasUid(SignInWithGoogle(s, account, io).state)
  {
  }

  /** Signing out, resetting a password, refreshing, the listener and a profile update keep the uid too. */
  lemma SessionFlowsKeepUid(s: AuthState, outcome: Option<Fault>, identity: Option<Identity>, io: DocIo, updates: User)
    requires UserHasUid(s)
    ensures UserHasUid(SignOut(s, outcome).state)
    ensures UserHasUid(ResetPassword(s, outcome).state)
    ensures UserHasUid(RefreshUserData(s, outcome))
    ensures UserHasUid(SessionChanged(s, identity, io))
    ensures UserHasUid(UpdateUserProfile(s, updates, outcome).state)
  {
  }
}

=== FILE: authform.dfy ===
/**
  The sign-in / sign-up form (components/auth/AuthForm.tsx): its local form
  state, how input events update it, and what a submission asks of the
  authentication flows. Rendering, animation and the password-visibility
  toggle are presentation only.
*/
module AuthForm {
  import opened Common
  import opened Types
  import Auth

  datatype Mode = SignInMode | SignUpMode

  /** The form's local state. */
  datatype FormData = FormData(email: string, password: string, displayName: string, agreeToTerms: bool)

  const EmptyForm := FormData("", "", "", false)

  /** The `name` attribute of the form's inputs. */
  datatype Field = EmailField | PasswordField | DisplayNameField | AgreeToTermsField

  /** The parts of `e.target` the change handler reads: name, whether it is a checkbox, value, checked. */
  datatype InputEvent = InputEvent(name: Field, isCheckbox: bool, value: string, checked: bool)

  /** The only input rendered as a checkbox is the terms box. */
  predicate WellFormed(ev: InputEvent) {
    ev.isCheckbox <==> ev.name == AgreeToTermsField
  }

  /** `handleInputChange`: the named field takes the event's value (its checked state for the checkbox). */
  function HandleInputChange(form: FormData, ev: InputEvent): (r: FormData)
    requires WellFormed(ev)
    ensures ev.name == EmailField ==> r == form.(email := ev.value)
    ensures ev.name == PasswordField ==> r == form.(password := ev.value)
    ensures ev.name == DisplayNameField ==> r == form.(displayName := ev.value)
    ensures ev.name == AgreeToTermsField ==> r == form.(agreeToTerms := ev.checked)
  {
    match ev.name
    case EmailField => form.(email := ev.value)
    case PasswordField => form.(password := ev.value)
    case DisplayNameField => form.(displayName := ev.value)
    case AgreeToTermsField => form.(agreeToTerms := ev.checked)
  }

  /** Of two events on the same field the later one wins; events on different fields commute. */
  lemma InputChangesCompose(form: FormData, a: InputEvent, b: InputEvent)
    requires WellFormed(a) && WellFormed(b)
    ensures a.name == b.name ==> HandleInputChange(HandleInputChange(form, a), b) == HandleInputChange(form, b)
    ensures a.name != b.name ==>
      HandleInputChange(HandleInputChange(form, a), b) == HandleInputChange(HandleInputChange(form, b), a)
  {
  }

  /** The link under the form switches between the two modes. */
  function ToggleMode(m: Mode): (r: Mode)
    ensures r != m
  {
    if m == SignInMode then SignUpMode else SignInMode
  }

  lemma ToggleModeInvolution(m: Mode)
    ensures ToggleMode(ToggleMode(m)) == m
  {
  }

  /** What the component does besides updating state: call `onSuccess`, go to the dashboard. */
  datatype Effect = NotifySuccess | Navigate(path: string)

  /** Which authentication flow the form invoked, with the data it passed. */
  datatype Call = NoCall | CalledSignUp(signUp: SignUpForm) | CalledSignIn(signIn: SignInForm) | CalledGoogle

  datatype Submitted = Submitted(state: Auth.AuthState, call: Call, effects: seq<Effect>)

  /** After a successful flow: the optional callback, then the dashboard. */
  function OnSuccess(hasOnSuccess: bool): (e: seq<Effect>)
    ensures |e| == (if hasOnSuccess then 2 else 1) && e[|e| - 1] == Navigate("/dashboard")
    ensures hasOnSuccess ==> e[0] == NotifySuccess
    ensures NotifySuccess in e <==> hasOnSuccess
  {
    (if hasOnSuccess then [NotifySuccess] else []) + [Navigate("/dashboard")]
  }

  function EffectsFor(result: Auth.FlowResult, hasOnSuccess: bool): (e: seq<Effect>)
    ensures e != [] <==> result.Succeeded?
  {
    if result.Succeeded? then OnSuccess(hasOnSuccess) else []
  }

  /**
    `handleSubmit`: clear the error; in sign-up mode stop unless the terms
    are accepted, else sign up with the form's fields; in sign-in mode sign
    in with `rememberMe` false. Only a successful flow leads on.
  */
  function Submit(s: Auth.AuthState, mode: Mode, form: FormData, hasOnSuccess: bool,
                  account: Result<Auth.Identity>, rename: Option<Fault>, io: Auth.DocIo): (r: Submitted)
    ensures mode == SignUpMode && !form.agreeToTerms ==> r == Submitted(s.(authError := None), NoCall, [])
    ensures mode == SignUpMode && form.agreeToTerms ==>
      r.call == CalledSignUp(SignUpForm(form.email, form.password, form.displayName, true))
    ensures mode == SignInMode ==> r.call == CalledSignIn(SignInForm(form.email, form.password, false))
    ensures r.effects != [] ==> r.effects[|r.effects| - 1] == Navigate("/dashboard") && r.state.app.isAuthenticated
    ensures r.call.NoCall? ==> r.effects == []
    // the state is the called flow's, from the cleared error; a failed attempt keeps the user and the documents
    ensures mode == SignInMode ==> r.state == Auth.SignIn(s.(authError := None), account, io).state
    ensures mode == SignUpMode && form.agreeToTerms ==>
      r.state == Auth.SignUp(s.(authError := None), SignUpForm(form.email, form.password, form.displayName, true), account, rename, io).state
    ensures r.effects == [] ==> r.state.app.user == s.app.user && r.state.docs == s.docs
    // the error shown afterwards is only ever the one the called flow reported
    ensures r.state.authError.None? <==> r.call.NoCall? || r.effects != []
  {
    var s0 := s.(authError := None);
    match mode
    case SignUpMode =>
      if !form.agreeToTerms then Submitted(s0, NoCall, [])
      else
        var data := SignUpForm(form.email, form.password, form.displayName, form.agreeToTerms);
        var step := Auth.SignUp(s0, data, account, rename, io);
        Submitted(step.state, CalledSignUp(data), EffectsFor(step.result, hasOnSuccess))
    case SignInMode =>
      var data := SignInForm(form.email, form.password, false);
      var step := Auth.SignIn(s0, account, io);
      Submitted(step.state, CalledSignIn(data), EffectsFor(step.result, hasOnSuccess))
  }

  /**
    Submitting leads to the dashboard exactly when the flow it calls
    succeeds: in sign-in mode when the provider accepts and the profile
    resolves; in sign-up mode when the terms are accepted, the account is
    created and renamed, and the profile resolves.
  */
  lemma SubmitNavigatesIffSignedIn(s: Auth.AuthState, mode: Mode, form: FormData, hasOnSuccess: bool,
                                   account: Result<Auth.Identity>, rename: Option<Fault>, io: Auth.DocIo)
    ensures var r := Submit(s, mode, form, hasOnSuccess, account, rename, io);
      mode == SignInMode ==>
        (Navigate("/dashboard") in r.effects <==> account.Ok? && Auth.GetOrCreate(s.docs, account.value, NoFields, io).Ok?)
    ensures var r := Submit(s, mode, form, hasOnSuccess, account, rename, io);
      mode == SignUpMode ==>
        (Navigate("/dashboard") in r.effects <==>
          && form.agreeToTerms && account.Ok? && rename.None?
          && Auth.SignUpDocument(s.docs, SignUpForm(form.email, form.password, form.displayName, true), account.value, io).Ok?)
  {
  }

  /** `handleGoogleSignIn`: the Google flow, and on success the same follow-up as a submission. */
  function GoogleSignIn(s: Auth.AuthState, hasOnSuccess: bool, popup: Result<Auth.Identity>, io: Auth.DocIo): (r: Submitted)
    ensures r.call == CalledGoogle
    ensures r.effects != [] <==> popup.Ok? && Auth.GetOrCreate(s.docs, popup.value, NoFields, io).Ok?
    ensures r.effects != [] ==> r.effects[|r.effects| - 1] == Navigate("/dashboard") && r.state.app.isAuthenticated
    ensures r.effects == [] ==> r.state.app.user == s.app.user && r.state.authError.Some?
  {
    var step := Auth.SignInWithGoogle(s, popup, io);
    Submitted(step.state, CalledGoogle, EffectsFor(step.result, hasOnSuccess))
  }
}

=== FILE: collections.dfy ===
/**
  The by-identifier operations the application state performs on its
  collections: `xs.map(x => x.id === id ? {...x, ...patch} : x)` and
  `xs.filter(x => x.id !== id)`. `key` reads an element's identifier.
*/
module Collections {

  /** `key(x) == id` for no element of `xs`. */
  predicate Absent<T>(xs: seq<T>, key: T -> string, id: string) {
    forall i :: 0 <= i < |xs| ==> key(xs[i]) != id
  }

  /** `a` is `b` with some elements deleted and the rest kept in their order. */
  ghost predicate IsSubsequence<T>(a: seq<T>, b: seq<T>)
    decreases |b|
  {
    if a == [] then true
    else if b == [] then false
    else (a[0] == b[0] && IsSubsequence(a[1..], b[1..])) || IsSubsequence(a, b[1..])
  }

  /**
    The `map` step of an update: every element whose identifier is `id` is
    replaced by `merge(element, patch)`, every other element stays where it is.
  */
  function UpdateById<T, P>(xs: seq<T>, key: T -> string, id: string, merge: (T, P) -> T, patch: P): (r: seq<T>)
    ensures |r| == |xs|
    ensures forall i :: 0 <= i < |xs| && key(xs[i]) == id ==> r[i] == merge(xs[i], patch)
    ensures forall i :: 0 <= i < |xs| && key(xs[i]) != id ==> r[i] == xs[i]
    decreases |xs|
  {
    if xs == [] then []
    else [if key(xs[0]) == id then merge(xs[0], patch) else xs[0]] + UpdateById(xs[1..], key, id, merge, patch)
  }

  /** An update by an identifier that no element carries changes nothing, and never inserts. */
  lemma UpdateAbsentIsIdentity<T, P>(xs: seq<T>, key: T -> string, id: string, merge: (T, P) -> T, patch: P)
    requires Absent(xs, key, id)
    ensures UpdateById(xs, key, id, merge, patch) == xs
  {
    var r := UpdateById(xs, key, id, merge, patch);
    assert forall i :: 0 <= i < |xs| ==> r[i] == xs[i];
  }

  /** The `filter` step of a removal: every element whose identifier is `id` is dropped. */
  function RemoveById<T(!new)>(xs: seq<T>, key: T -> string, id: string): (r: seq<T>)
    ensures forall x :: x in r <==> x in xs && key(x) != id
    ensures |r| <= |xs|
    decreases |xs|
  {
    if xs == [] then []
    else if key(xs[0]) == id then RemoveById(xs[1..], key, id)
    else [xs[0]] + RemoveById(xs[1..], key, id)
  }

  /**
    A removal drops exactly the matching elements: each other element keeps
    its multiplicity, none that matches is left, and what is left is in the
    original order.
  */
  lemma {:induction false} RemoveByIdExact<T(!new)>(xs: seq<T>, key: T -> string, id: string)
    ensures forall x :: multiset(RemoveById(xs, key, id))[x] == (if key(x) == id then 0 else multiset(xs)[x])
    ensures IsSubsequence(RemoveById(xs, key, id), xs)
    decreases |xs|
  {
    if xs != [] {
      RemoveByIdExact(xs[1..], key, id);
      assert xs == [xs[0]] + xs[1..];
      var rest := RemoveById(xs[1..], key, id);
      if key(xs[0]) != id {
        assert RemoveById(xs, key, id) == [xs[0]] + rest;
        assert ([xs[0]] + rest)[1..] == rest;
      } else {
        SubsequenceOfTail(rest, xs);
      }
    }
  }

  lemma SubsequenceOfTail<T>(a: seq<T>, b: seq<T>)
    requires b != [] && IsSubsequence(a, b[1..])
    ensures IsSubsequence(a, b)
  {
  }

  /** Removing by an identifier that no element carries changes nothing. */
  lemma {:induction false} RemoveAbsentIsIdentity<T(!new)>(xs: seq<T>, key: T -> string, id: string)
    requires Absent(xs, key, id)
    ensures RemoveById(xs, key, id) == xs
    decreases |xs|
  {
    if xs != [] {
      RemoveAbsentIsIdentity(xs[1..], key, id);
      assert xs == [xs[0]] + xs[1..];
    }
  }

  /** After a removal no element carries the identifier, so removing again is a no-op. */
  lemma RemoveByIdIdempotent<T(!new)>(xs: seq<T>, key: T -> string, id: string)
    ensures Absent(RemoveById(xs, key, id), key, id)
    ensures RemoveById(RemoveById(xs, key, id), key, id) == RemoveById(xs, key, id)
  {
    var r := RemoveById(xs, key, id);
    assert forall i :: 0 <= i < |r| ==> r[i] in r;
    RemoveAbsentIsIdentity(r, key, id);
  }

  /** Removing an identifier after appending an element that carries it undoes the append, when it was new. */
  lemma {:induction false} RemoveAfterAppend<T(!new)>(xs: seq<T>, x: T, key: T -> string)
    requires Absent(xs, key, key(x))
    ensures RemoveById(xs + [x], key, key(x)) == xs
    decreases |xs|
  {
    if xs == [] {
      assert [x][1..] == [];
    } else {
      assert (xs + [x])[1..] == xs[1..] + [x];
      RemoveAfterAppend(xs[1..], x, key);
      assert xs == [xs[0]] + xs[1..];
    }
  }
}

=== FILE: common.dfy ===
/** Small failure-carrying datatypes shared by every other module. */
module Common {

  /** A value that may be absent: a JavaScript `undefined`/`null` slot or an omitted key. */
  datatype Option<+T> = None | Some(value: T) {

    /** The present value, or `default` when absent (the `a ?? b` of the source). */
    function GetOr(default: T): T {
      match this
      case Some(v) => v
      case None => default
    }
  }

  /** A failure reported by an external provider: the `code` and `message` of the thrown error. */
  datatype Fault = Fault(code: string, message: string)

  /** How a provider call that yields a value ended: resolved with a value or rejected with a fault. */
  datatype Result<+T> = Ok(value: T) | Err(fault: Fault)

  /** Object-spread of one key: `{...base, ...top}` keeps `top`'s value when `top` has the key. */
  function Over<T>(base: Option<T>, top: Option<T>): (r: Option<T>)
    ensures r.Some? <==> base.Some? || top.Some?
    ensures top.Some? ==> r == top
    ensures top.None? ==> r == base
  {
    if top.Some? then top else base
  }

  /** Object-spread of one key onto a required field. */
  function OverValue<T>(base: T, top: Option<T>): (r: T)
    ensures top.Some? ==> r == top.value
    ensures top.None? ==> r == base
  {
    top.GetOr(base)
  }

  /** The first occurrence of `c` splits `s` into the text before and after it. */
  function SplitAt(s: seq<char>, c: char): (r: Option<(seq<char>, seq<char>)>)
    ensures r.Some? ==> s == r.value.0 + [c] + r.value.1 && c !in r.value.0
    ensures r.None? ==> c !in s
    decreases |s|
  {
    if s == [] then None
    else if s[0] == c then Some(([], s[1..]))
    else match SplitAt(s[1..], c)
      case None => None
      case Some(parts) => Some(([s[0]] + parts.0, parts.1))
  }

  lemma {:induction false} SplitAtFirst(a: seq<char>, c: char, b: seq<char>)
    requires c !in a
    ensures SplitAt(a + [c] + b, c) == Some((a, b))
    decreases |a|
  {
    if a == [] {
      assert a + [c] + b == [c] + b;
    } else {
      assert (a + [c] + b)[1..] == a[1..] + [c] + b;
      SplitAtFirst(a[1..], c, b);
      assert [a[0]] + a[1..] == a;
    }
  }
}

=== FILE: dashboard.dfy ===
/**
  The usage cards of the dashboard (app/dashboard/page.tsx) hard-code each
  tier's limits in ternaries on the plan instead of asking the catalog.
  This module states those ternaries and shows they agree with the catalog.
*/
module Dashboard {
  import opened Common
  import opened Types
  import Plans

  /** The image limit a usage card shows for a plan. */
  function ShownImageLimit(plan: SubscriptionPlan): (n: nat)
    ensures n > 0
  {
    if plan == Free then 10 else if plan == Pro then 500 else 2000
  }

  /** The video limit a usage card shows for a plan. */
  function ShownVideoLimit(plan: SubscriptionPlan): (n: nat)
    ensures n > 0
  {
    if plan == Free then 3 else if plan == Pro then 50 else 200
  }

  /** The storage limit, in GB, a usage card shows for a plan. */
  function ShownStorageGB(plan: SubscriptionPlan): (n: nat)
    ensures n > 0
  {
    if plan == Free then 1 else if plan == Pro then 25 else 100
  }

  /**
    For every plan the dashboard's figures are the catalog's monthly limits
    (storage in the catalog is counted in MB, 1024 to the GB).
  */
  lemma ShownLimitsMatchCatalog(plan: SubscriptionPlan)
    ensures Plans.GetUsageLimits(PlanTag(plan))
      == Some(Plans.UsageLimits(ShownImageLimit(plan), ShownVideoLimit(plan), ShownStorageGB(plan) * 1024))
  {
    Plans.UsageLimitsTable(plan);
    match plan
    case Free =>
    case Pro =>
    case Enterprise =>
  }
}

=== FILE: decimal.dfy ===
/** Decimal digit strings, as JavaScript prints non-negative integers. */
module Decimal {

  predicate IsDigit(c: char) {
    '0' <= c <= '9'
  }

  predicate AllDigits(s: string) {
    forall i :: 0 <= i < |s| ==> IsDigit(s[i])
  }

  function DigitChar(d: nat): (c: char)
    requires d < 10
    ensures IsDigit(c)
  {
    ('0' as int + d) as char
  }

  function DigitValue(c: char): (d: nat)
    requires IsDigit(c)
    ensures d < 10
    ensures DigitChar(d) == c
  {
    (c as int - '0' as int)
  }

  /** The shortest decimal numeral of `n`: no leading zero, and "0" for zero. */
  function NatToString(n: nat): (s: string)
    ensures |s| > 0 && AllDigits(s)
    ensures |s| > 1 ==> s[0] != '0'
    decreases n
  {
    if n < 10 then [DigitChar(n)] else NatToString(n / 10) + [DigitChar(n % 10)]
  }

  /** The value of a string of digits, most significant first. */
  function ParseDigits(s: string): nat
    requires AllDigits(s)
    decreases |s|
  {
    if s == [] then 0 else ParseDigits(s[..|s| - 1]) * 10 + DigitValue(s[|s| - 1])
  }

  /** Reading back a printed numeral yields the number. */
  lemma {:induction false} ParseNatToString(n: nat)
    ensures ParseDigits(NatToString(n)) == n
    decreases n
  {
    var s := NatToString(n);
    if n < 10 {
      assert s[..0] == [];
    } else {
      ParseNatToString(n / 10);
      assert s[..|s| - 1] == NatToString(n / 10);
    }
  }

  /** A number below one hundred as exactly two digits, with a leading zero when needed. */
  function TwoDigits(n: nat): (s: string)
    requires n < 100
    ensures |s| == 2 && AllDigits(s)
  {
    [DigitChar(n / 10), DigitChar(n % 10)]
  }

  lemma ParseTwoDigits(n: nat)
    requires n < 100
    ensures ParseDigits(TwoDigits(n)) == n
  {
    var s := TwoDigits(n);
    assert s[..1][..0] == [];
    assert s[..1] == [DigitChar(n / 10)];
    assert DigitValue(s[0]) == n / 10;
    assert DigitValue(s[1]) == n % 10;
    assert ParseDigits(s[..1]) == n / 10;
    assert ParseDigits(s) == ParseDigits(s[..1]) * 10 + DigitValue(s[1]);
  }
}

=== FILE: plans.dfy ===
/**
  The billing plan catalog (lib/stripe/plans.ts): two immutable tables of
  plan offers, lookups into them, and the integer-cent price helpers. Stripe
  price ids are the literal fallbacks the source uses when no environment
  override is set.
*/
module Plans {
  import opened Common
  import opened Types
  import opened Decimal

  const FreeFeatures := PlanFeatures(
    imagesPerMonth := 10, videosPerMonth := 3, storageGB := 1, priority := false, teamMembers := 1,
    apiAccess := false, commercialRights := false, customBranding := false, advancedModels := false)

  const ProFeatures := PlanFeatures(
    imagesPerMonth := 500, videosPerMonth := 50, storageGB := 25, priority := true, teamMembers := 3,
    apiAccess := true, commercialRights := true, customBranding := false, advancedModels := true)

  const EnterpriseFeatures := PlanFeatures(
    imagesPerMonth := 2000, videosPerMonth := 200, storageGB := 100, priority := true, teamMembers := 10,
    apiAccess := true, commercialRights := true, customBranding := true, advancedModels := true)

  /** `SUBSCRIPTION_PLANS`: the monthly offers. */
  const MonthlyPlans: seq<SubscriptionPlanConfig> := [
    SubscriptionPlanConfig(Free, "Free", 0, Month, FreeFeatures, None, ""),
    SubscriptionPlanConfig(Pro, "Pro", 2900, Month, ProFeatures, Some(true), "price_pro_monthly"),
    SubscriptionPlanConfig(Enterprise, "Enterprise", 9900, Month, EnterpriseFeatures, None, "price_enterprise_monthly")
  ]

  /** `ANNUAL_SUBSCRIPTION_PLANS`: the yearly offers; there is no yearly free plan. */
  const AnnualPlans: seq<SubscriptionPlanConfig> := [
    SubscriptionPlanConfig(Pro, "Pro", 27840, Year, ProFeatures, Some(true), "price_pro_yearly"),
    SubscriptionPlanConfig(Enterprise, "Enterprise", 95040, Year, EnterpriseFeatures, None, "price_enterprise_yearly")
  ]

  /** The table `getPlanById` searches for an interval. */
  function PlansFor(interval: Interval): seq<SubscriptionPlanConfig> {
    if interval == Year then AnnualPlans else MonthlyPlans
  }

  /** The index of the first plan that `matches` accepts (`Array.prototype.find`). */
  function FirstMatch(plans: seq<SubscriptionPlanConfig>, matches: SubscriptionPlanConfig -> bool): (r: Option<nat>)
    ensures r.Some? ==> r.value < |plans| && matches(plans[r.value])
    ensures r.Some? ==> forall j :: 0 <= j < r.value ==> !matches(plans[j])
    ensures r.None? <==> forall j :: 0 <= j < |plans| ==> !matches(plans[j])
    decreases |plans|
  {
    if plans == [] then None
    else if matches(plans[0]) then Some(0)
    else match FirstMatch(plans[1..], matches)
      case None => None
      case Some(k) => Some(k + 1)
  }

  function Find(plans: seq<SubscriptionPlanConfig>, matches: SubscriptionPlanConfig -> bool): Option<SubscriptionPlanConfig> {
    match FirstMatch(plans, matches)
    case None => None
    case Some(k) => Some(plans[k])
  }

  function HasId(planId: string): SubscriptionPlanConfig -> bool {
    (p: SubscriptionPlanConfig) => PlanTag(p.id) == planId
  }

  function HasPriceId(priceId: string): SubscriptionPlanConfig -> bool {
    (p: SubscriptionPlanConfig) => p.stripePriceId == priceId
  }

  /**
    `getPlanById`: searches only the table of the requested interval, so a
    plan found is one of that interval's offers and carries the id asked for;
    nothing is found exactly when no offer of that interval has the id.
  */
  function GetPlanById(planId: string, interval: Interval): (r: Option<SubscriptionPlanConfig>)
    ensures r.Some? ==> r.value in PlansFor(interval) && PlanTag(r.value.id) == planId && r.value.interval == interval
    ensures r.None? <==> forall p :: p in PlansFor(interval) ==> PlanTag(p.id) != planId
  {
    var r := Find(PlansFor(interval), HasId(planId));
    assert forall j :: 0 <= j < |PlansFor(interval)| ==> PlansFor(interval)[j].interval == interval;
    r
  }

  /** A plan that matches, after plans that do not, is what `Find` returns. */
  lemma FindIsFirst(plans: seq<SubscriptionPlanConfig>, matches: SubscriptionPlanConfig -> bool, i: nat)
    requires i < |plans| && matches(plans[i])
    requires forall j :: 0 <= j < i ==> !matches(plans[j])
    ensures Find(plans, matches) == Some(plans[i])
  {
  }

  /** The feature set of a tier, shared by its monthly and yearly offers. */
  function TierFeatures(plan: SubscriptionPlan): PlanFeatures {
    match plan
    case Free => FreeFeatures
    case Pro => ProFeatures
    case Enterprise => EnterpriseFeatures
  }

  /** Where a tier's monthly offer sits in `SUBSCRIPTION_PLANS`. */
  function MonthlyIndex(plan: SubscriptionPlan): (i: nat)
    ensures i < |MonthlyPlans| && MonthlyPlans[i].id == plan && MonthlyPlans[i].features == TierFeatures(plan)
  {
    match plan
    case Free => 0
    case Pro => 1
    case Enterprise => 2
  }

  /** Where a paid tier's yearly offer sits in `ANNUAL_SUBSCRIPTION_PLANS`. */
  function AnnualIndex(plan: SubscriptionPlan): (i: nat)
    requires plan != Free
    ensures i < |AnnualPlans| && AnnualPlans[i].id == plan && AnnualPlans[i].features == TierFeatures(plan)
  {
    if plan == Pro then 0 else 1
  }

  /** Every tier's monthly offer is what `getPlanById` returns for the tier's id. */
  lemma MonthlyOfferOf(plan: SubscriptionPlan)
    ensures GetPlanById(PlanTag(plan), Month) == Some(MonthlyPlans[MonthlyIndex(plan)])
  {
    FindIsFirst(MonthlyPlans, HasId(PlanTag(plan)), MonthlyIndex(plan));
  }

  /** Every paid tier's yearly offer is found by its id; the free tier has no yearly offer. */
  lemma AnnualOfferOf(plan: SubscriptionPlan)
    ensures plan == Free ==> GetPlanById(PlanTag(plan), Year).None?
    ensures plan != Free ==> GetPlanById(PlanTag(plan), Year) == Some(AnnualPlans[AnnualIndex(plan)])
  {
    if plan != Free {
      FindIsFirst(AnnualPlans, HasId(PlanTag(plan)), AnnualIndex(plan));
    }
  }

  /** Monthly offers first, then yearly, as `[...SUBSCRIPTION_PLANS, ...ANNUAL_SUBSCRIPTION_PLANS]`. */
  const AllPlans := MonthlyPlans + AnnualPlans

  /** `getPlanByPriceId`: the first offer, monthly before yearly, with the price id. */
  function GetPlanByPriceId(priceId: string): (r: Option<SubscriptionPlanConfig>)
    ensures r.Some? ==> r.value in AllPlans && r.value.stripePriceId == priceId
    ensures r.None? <==> forall p :: p in AllPlans ==> p.stripePriceId != priceId
  {
    Find(AllPlans, HasPriceId(priceId))
  }

  /**
    The price ids of the five offers are distinct, so each offer is found by
    its own price id; the empty price id is the free plan's.
  */
  lemma GetPlanByPriceIdFindsEveryOffer()
    ensures forall i :: 0 <= i < |AllPlans| ==> GetPlanByPriceId(AllPlans[i].stripePriceId) == Some(AllPlans[i])
    ensures GetPlanByPriceId("") == Some(MonthlyPlans[0]) && MonthlyPlans[0].id == Free
  {
  }

  datatype UsageLimits = UsageLimits(images: int, videos: int, storage: int)

  function LimitsOf(f: PlanFeatures): UsageLimits {
    UsageLimits(f.imagesPerMonth, f.videosPerMonth, f.storageGB * 1024)
  }

  /**
    `getUsageLimits`: null for an id with no monthly offer; otherwise the
    monthly offer's image and video allowances and its storage in MB.
  */
  function GetUsageLimits(planId: string): (r: Option<UsageLimits>)
    ensures r.None? <==> GetPlanById(planId, Month).None?
    ensures r.Some? ==> exists p :: p in MonthlyPlans && PlanTag(p.id) == planId && r.value == LimitsOf(p.features)
  {
    match GetPlanById(planId, Month)
    case None => None
    case Some(p) => Some(LimitsOf(p.features))
  }

  /** Each tier's limits, with storage in MB. */
  lemma UsageLimitsTable(plan: SubscriptionPlan)
    ensures GetUsageLimits(PlanTag(plan)) == Some(match plan
      case Free => UsageLimits(10, 3, 1024)
      case Pro => UsageLimits(500, 50, 25600)
      case Enterprise => UsageLimits(2000, 200, 102400))
  {
    MonthlyOfferOf(plan);
  }

  /** A string that names no plan finds no offer of either interval, no limits and no feature. */
  lemma UnknownPlanGrantsNothing(planId: string, k: Feature)
    requires PlanFromTag(planId).None?
    ensures GetPlanById(planId, Month).None? && GetPlanById(planId, Year).None?
    ensures GetUsageLimits(planId).None?
    ensures CheckFeatureAccess(planId, k) == Flag(false)
  {
  }

  // ---------------------------------------------------------------------------
  // Feature flags
  // ---------------------------------------------------------------------------

  /** The keys of `PlanFeatures`. */
  datatype Feature =
    | ImagesPerMonth | VideosPerMonth | StorageGB | Priority | TeamMembers
    | ApiAccess | CommercialRights | CustomBranding | AdvancedModels

  /** A feature's value: a number for the allowances, a boolean for the switches. */
  datatype FeatureValue = Count(n: int) | Flag(on: bool)

  function FeatureOf(f: PlanFeatures, k: Feature): FeatureValue {
    match k
    case ImagesPerMonth => Count(f.imagesPerMonth)
    case VideosPerMonth => Count(f.videosPerMonth)
    case StorageGB => Count(f.storageGB)
    case Priority => Flag(f.priority)
    case TeamMembers => Count(f.teamMembers)
    case ApiAccess => Flag(f.apiAccess)
    case CommercialRights => Flag(f.commercialRights)
    case CustomBranding => Flag(f.customBranding)
    case AdvancedModels => Flag(f.advancedModels)
  }

  /** JavaScript truthiness of a feature value: non-zero numbers and `true`. */
  predicate Truthy(v: FeatureValue) {
    match v
    case Count(n) => n != 0
    case Flag(b) => b
  }

  /**
    `checkFeatureAccess`: `false` for an id with no monthly offer or a falsy
    feature value; otherwise the value itself (`plan?.features[k] || false`).
  */
  function CheckFeatureAccess(planId: string, k: Feature): (r: FeatureValue)
    ensures !Truthy(r) ==> r == Flag(false)
    ensures GetPlanById(planId, Month).None? ==> r == Flag(false)
  {
    match GetPlanById(planId, Month)
    case None => Flag(false)
    case Some(p) => if Truthy(FeatureOf(p.features, k)) then FeatureOf(p.features, k) else Flag(false)
  }

  /**
    Access is granted exactly when some monthly offer has the id and a truthy
    value for the feature, and what is granted is that value.
  */
  lemma CheckFeatureAccessMeaning(planId: string, k: Feature)
    ensures Truthy(CheckFeatureAccess(planId, k))
      <==> exists p :: p in MonthlyPlans && PlanTag(p.id) == planId && Truthy(FeatureOf(p.features, k))
    ensures Truthy(CheckFeatureAccess(planId, k))
      ==> exists p :: p in MonthlyPlans && PlanTag(p.id) == planId && CheckFeatureAccess(planId, k) == FeatureOf(p.features, k)
  {
    match PlanFromTag(planId)
    case None =>
      UnknownPlanGrantsNothing(planId, k);
    case Some(plan) =>
      FeatureAccessOfTier(plan, k);
      OffersCarryTierFeatures();
      forall p | p in MonthlyPlans && PlanTag(p.id) == planId
        ensures p.features == TierFeatures(plan)
      {
        PlanTagInjective(p.id, plan);
      }
      assert MonthlyPlans[MonthlyIndex(plan)] in MonthlyPlans;
  }

  /** Distinct tiers have distinct tags. */
  lemma PlanTagInjective(p: SubscriptionPlan, q: SubscriptionPlan)
    requires PlanTag(p) == PlanTag(q)
    ensures p == q
  {
    assert PlanFromTag(PlanTag(p)) == Some(p) && PlanFromTag(PlanTag(q)) == Some(q) by {
      TagsRoundTrip();
    }
  }

  /** Every offer, monthly or yearly, carries the feature set of its tier. */
  lemma OffersCarryTierFeatures()
    ensures forall p :: p in MonthlyPlans ==> p.features == TierFeatures(p.id)
    ensures forall p :: p in AnnualPlans ==> p.features == TierFeatures(p.id)
  {
  }

  /** A tier's access to a feature is its own feature value, or `false` when that is falsy. */
  lemma FeatureAccessOfTier(plan: SubscriptionPlan, k: Feature)
    ensures CheckFeatureAccess(PlanTag(plan), k)
      == (var v := FeatureOf(TierFeatures(plan), k); if Truthy(v) then v else Flag(false))
  {
    MonthlyOfferOf(plan);
  }

  /** Only the enterprise tier removes branding. */
  lemma CustomBrandingByTier(plan: SubscriptionPlan)
    ensures CheckFeatureAccess(PlanTag(plan), CustomBranding) == Flag(plan == Enterprise)
  {
    var v := FeatureOf(TierFeatures(plan), CustomBranding);
    assert v == Flag(plan == Enterprise) by {
      match plan
      case Free =>
      case Pro =>
      case Enterprise =>
    }
    FeatureAccessOfTier(plan, CustomBranding);
    if plan != Enterprise {
      assert !Truthy(v);
    }
  }

  /** The switches only paid tiers have: API access, commercial rights, advanced models and priority. */
  predicate PaidSwitch(k: Feature) {
    k == ApiAccess || k == CommercialRights || k == AdvancedModels || k == Priority
  }

  /** Every paid switch is on for each paid tier and off for the free one. */
  lemma PaidSwitchesByTier(plan: SubscriptionPlan, k: Feature)
    requires PaidSwitch(k)
    ensures CheckFeatureAccess(PlanTag(plan), k) == Flag(plan != Free)
  {
    var v := FeatureOf(TierFeatures(plan), k);
    assert v == Flag(plan != Free) by {
      match plan
      case Free =>
      case Pro =>
      case Enterprise =>
    }
    FeatureAccessOfTier(plan, k);
    if plan == Free {
      assert !Truthy(v);
    }
  }

  // ---------------------------------------------------------------------------
  // Prices
  // ---------------------------------------------------------------------------

  /**
    `formatPrice`: dollars and two-digit cents of a price in cents, as
    `(price / 100).toFixed(2)` prints them, between "$" and "/interval".
  */
  function FormatPrice(price: int, interval: Interval): (r: string)
    ensures |r| > 1 && r[0] == '$'
    ensures r[1] == '-' <==> price < 0
  {
    if price < 0 then "$-" + FormatAmount(-price, interval) else "$" + FormatAmount(price, interval)
  }

  /** The unsigned part: whole dollars, a point, two digits of cents, "/", the interval. */
  function FormatAmount(cents: nat, interval: Interval): (r: string)
    ensures |r| > 0 && IsDigit(r[0])
  {
    NatToString(cents / 100) + "." + TwoDigits(cents % 100) + "/" + IntervalTag(interval)
  }

  /** Reads "dollars.cc/interval" back into cents and the interval. */
  function ParseAmount(s: string): Option<(nat, Interval)> {
    match SplitAt(s, '.')
    case None => None
    case Some(parts) => ParseCents(parts.0, parts.1)
  }

  /** Reads the dollars before the point and "cc/interval" after it. */
  function ParseCents(whole: string, rest: string): Option<(nat, Interval)> {
    if |whole| == 0 || !AllDigits(whole) || |rest| < 3 || !AllDigits(rest[..2]) || rest[2] != '/' then None
    else match IntervalFromTag(rest[3..])
      case None => None
      case Some(interval) => Some((ParseDigits(whole) * 100 + ParseDigits(rest[..2]), interval))
  }

  /** The inverse of `FormatPrice`: recovers the price in cents and the interval. */
  function ParsePrice(s: string): Option<(int, Interval)> {
    if |s| == 0 || s[0] != '$' then None
    else if |s| > 1 && s[1] == '-' then
      match ParseAmount(s[2..])
      case None => None
      case Some(amount) => Some((-(amount.0 as int), amount.1))
    else
      match ParseAmount(s[1..])
      case None => None
      case Some(amount) => Some((amount.0 as int, amount.1))
  }

  lemma ParseAmountOfParts(whole: string, frac: string, tag: string, interval: Interval)
    requires |whole| > 0 && AllDigits(whole) && |frac| == 2 && AllDigits(frac)
    requires IntervalFromTag(tag) == Some(interval)
    ensures ParseAmount(whole + "." + frac + "/" + tag) == Some((ParseDigits(whole) * 100 + ParseDigits(frac), interval))
  {
    SplitAmount(whole, frac, tag);
    ReadTail(whole, frac, tag, interval);
  }

  lemma SplitAmount(whole: string, frac: string, tag: string)
    requires AllDigits(whole)
    ensures SplitAt(whole + "." + frac + "/" + tag, '.') == Some((whole, frac + "/" + tag))
  {
    assert '.' !in whole by {
      assert forall i :: 0 <= i < |whole| ==> IsDigit(whole[i]);
    }
    SplitAtFirst(whole, '.', frac + "/" + tag);
    assert whole + "." + frac + "/" + tag == whole + ['.'] + (frac + "/" + tag);
  }

  lemma ReadTail(whole: string, frac: string, tag: string, interval: Interval)
    requires |whole| > 0 && AllDigits(whole) && |frac| == 2 && AllDigits(frac)
    requires IntervalFromTag(tag) == Some(interval)
    ensures ParseCents(whole, frac + "/" + tag) == Some((ParseDigits(whole) * 100 + ParseDigits(frac), interval))
  {
    var rest := frac + "/" + tag;
    assert rest[..2] == frac;
    assert rest[2] == '/';
    assert rest[3..] == tag;
  }

  lemma ParseAmountOfFormatted(cents: nat, interval: Interval)
    ensures ParseAmount(FormatAmount(cents, interval)) == Some((cents, interval))
  {
    var whole := NatToString(cents / 100);
    var frac := TwoDigits(cents % 100);
    var tag := IntervalTag(interval);
    assert IntervalFromTag(tag) == Some(interval) by {
      match interval
      case Month =>
      case Year =>
    }
    ParseAmountOfParts(whole, frac, tag, interval);
    ParseNatToString(cents / 100);
    ParseTwoDigits(cents % 100);
    assert ParseDigits(whole) * 100 + ParseDigits(frac) == cents;
  }

  /** A formatted price reads back as the same price and interval: the display loses nothing. */
  lemma FormatPriceRoundTrip(price: int, interval: Interval)
    ensures ParsePrice(FormatPrice(price, interval)) == Some((price, interval))
  {
    var cents: nat := if price < 0 then -price else price;
    var amount := FormatAmount(cents, interval);
    ParseAmountOfFormatted(cents, interval);
    if price < 0 {
      ReadNegative(amount);
    } else {
      assert amount[0] == NatToString(cents / 100)[0];
      ReadNonNegative(amount);
    }
  }

  lemma ReadNegative(amount: string)
    ensures ParsePrice("$-" + amount) == match ParseAmount(amount)
      case None => None
      case Some(a) => Some((-(a.0 as int), a.1))
  {
    assert ("$-" + amount)[2..] == amount;
  }

  lemma ReadNonNegative(amount: string)
    requires |amount| > 0 && amount[0] != '-'
    ensures ParsePrice("$" + amount) == match ParseAmount(amount)
      case None => None
      case Some(a) => Some((a.0 as int, a.1))
  {
    assert ("$" + amount)[1..] == amount;
  }

  /** The two paid tiers' prices print as on the pricing page. */
  lemma FormatPriceExamples()
    ensures FormatPrice(2900, Month) == "$29.00/month"
    ensures FormatPrice(27840, Year) == "$278.40/year"
  {
    FormatMonthlyProPrice();
    FormatYearlyProPrice();
  }

  lemma FormatMonthlyProPrice()
    ensures FormatPrice(2900, Month) == "$29.00/month"
  {
    assert NatToString(2) == "2";
    assert NatToString(29) == "29";
    assert TwoDigits(0) == "00";
  }

  lemma FormatYearlyProPrice()
    ensures FormatPrice(27840, Year) == "$278.40/year"
  {
    assert NatToString(2) == "2";
    assert NatToString(27) == "27";
    assert NatToString(278) == "278";
    assert TwoDigits(40) == "40";
  }

  /**
    `r` is `num / den` rounded to the nearest integer, halves upwards, as
    `Math.round` does: `r - 1/2 <= num/den < r + 1/2`.
  */
  ghost predicate RoundsHalfUp(num: int, den: int, r: int) {
    if den > 0 then (2 * r - 1) * den <= 2 * num < (2 * r + 1) * den
    else (2 * r - 1) * den >= 2 * num > (2 * r + 1) * den
  }

  /** `Math.round(num / den)` for a non-zero denominator, in exact integer arithmetic. */
  function RoundDiv(num: int, den: int): (r: int)
    requires den != 0
    ensures RoundsHalfUp(num, den, r)
  {
    if den > 0 then
      var q := (2 * num + den) / (2 * den);
      DivFloor(2 * num + den, 2 * den);
      q
    else
      var q := (-(2 * num + den)) / (-2 * den);
      DivFloor(-(2 * num + den), -2 * den);
      q
  }

  lemma DivFloor(a: int, d: int)
    requires d > 0
    ensures (a / d) * d <= a < (a / d + 1) * d
  {
  }

  lemma MulLessCancel(a: int, b: int, d: int)
    requires d > 0 && a * d < b * d
    ensures a < b
  {
    assert (b - a) * d == b * d - a * d;
  }

  /** At most one integer is the rounding of a quotient, so `RoundsHalfUp` pins the result down. */
  lemma RoundsHalfUpUnique(num: int, den: int, r1: int, r2: int)
    requires den != 0 && RoundsHalfUp(num, den, r1) && RoundsHalfUp(num, den, r2)
    ensures r1 == r2
  {
    if den > 0 {
      MulLessCancel(2 * r1 - 1, 2 * r2 + 1, den);
      MulLessCancel(2 * r2 - 1, 2 * r1 + 1, den);
    } else {
      assert (2 * r1 - 1) * den == (1 - 2 * r1) * -den;
      assert (2 * r2 + 1) * den == (-2 * r2 - 1) * -den;
      assert (2 * r2 - 1) * den == (1 - 2 * r2) * -den;
      assert (2 * r1 + 1) * den == (-2 * r1 - 1) * -den;
      MulLessCancel(-2 * r2 - 1, 1 - 2 * r1, -den);
      MulLessCancel(-2 * r1 - 1, 1 - 2 * r2, -den);
    }
  }

  /**
    `getDiscountAmount`: the percentage by which a yearly price undercuts
    twelve monthly payments, rounded half up:
    `round(100 * (12 * monthly - yearly) / (12 * monthly))`.
  */
  function DiscountAmount(monthlyPrice: int, yearlyPrice: int): (r: int)
    requires monthlyPrice != 0
    ensures RoundsHalfUp(100 * (monthlyPrice * 12 - yearlyPrice), monthlyPrice * 12, r)
  {
    RoundDiv(100 * (monthlyPrice * 12 - yearlyPrice), monthlyPrice * 12)
  }

  /** A yearly price of exactly `(1 - d/100)` times twelve months is a discount of `d` percent. */
  lemma DiscountOfExactPrice(monthlyPrice: int, d: int)
    requires monthlyPrice > 0 && (monthlyPrice * 12 * (100 - d)) % 100 == 0
    ensures DiscountAmount(monthlyPrice, monthlyPrice * 12 * (100 - d) / 100) == d
  {
    var a := monthlyPrice * 12;
    var y := a * (100 - d) / 100;
    assert y * 100 == a * (100 - d);
    assert 100 * (a - y) == a * d;
    assert RoundsHalfUp(100 * (a - y), a, d) by {
      assert 2 * (a * d) == (2 * d) * a;
      assert (2 * d - 1) * a == 2 * d * a - a;
      assert (2 * d + 1) * a == 2 * d * a + a;
    }
    RoundsHalfUpUnique(100 * (a - y), a, DiscountAmount(monthlyPrice, y), d);
  }

  /**
    Each yearly offer mirrors the monthly offer of its tier (same id, name and
    features), costs twelve months less 20 percent, and so is a 20 percent
    discount; for example `getDiscountAmount(2900, 27840)` is 20.
  */
  lemma AnnualOffersMirrorMonthly()
    ensures forall i :: 0 <= i < |AnnualPlans| ==>
      && AnnualPlans[i].id == MonthlyPlans[i + 1].id
      && AnnualPlans[i].name == MonthlyPlans[i + 1].name
      && AnnualPlans[i].features == MonthlyPlans[i + 1].features
      && AnnualPlans[i].price * 10 == MonthlyPlans[i + 1].price * 12 * 8
      && DiscountAmount(MonthlyPlans[i + 1].price, AnnualPlans[i].price) == 20
    ensures DiscountAmount(2900, 27840) == 20
  {
    DiscountOfExactPrice(2900, 20);
    assert 2900 * 12 * (100 - 20) / 100 == 27840;
    DiscountOfExactPrice(9900, 20);
    assert 9900 * 12 * (100 - 20) / 100 == 95040;
  }
}

=== FILE: store.dfy ===
/**
  The application state container (stores/useAppStore.ts). Every action is a
  pure function from the previous state and its arguments to the next state;
  the container's subscriber notification is not modelled.
*/
module Store {
  import opened Common
  import opened Types
  import opened Collections

  datatype AppState = AppState(
    user: Option<User>,
    isAuthenticated: bool,
    isLoading: bool,
    ui: UIState,
    projects: seq<Project>,
    assets: seq<Asset>,
    generationJobs: seq<GenerationJob>)

  const InitialUI: UIState := UIState(false, None, [], Grid, NoFilters)

  /** The state the container is created with: no user, still loading, nothing held. */
  const Initial: AppState := AppState(None, false, true, InitialUI, [], [], [])

  /** The three data collections agree. */
  predicate SameData(a: AppState, b: AppState) {
    a.projects == b.projects && a.assets == b.assets && a.generationJobs == b.generationJobs
  }

  /** The session slice (user and the two flags) agrees. */
  predicate SameSession(a: AppState, b: AppState) {
    a.user == b.user && a.isAuthenticated == b.isAuthenticated && a.isLoading == b.isLoading
  }

  /** Identity on strings: the selection list holds bare asset ids. */
  function SelfId(s: string): string { s }

  // ---------------------------------------------------------------------------
  // Session actions
  // ---------------------------------------------------------------------------

  /** `setUser`: authentication follows the presence of a user, and loading is over. */
  function SetUser(s: AppState, u: Option<User>): (r: AppState)
    ensures r.user == u
    ensures r.isAuthenticated <==> u.Some?
    ensures !r.isLoading
    ensures r.ui == s.ui && SameData(s, r)
  {
    s.(user := u, isAuthenticated := u.Some?, isLoading := false)
  }

  function SetLoading(s: AppState, loading: bool): (r: AppState)
    ensures r.isLoading == loading
    ensures r.user == s.user && r.isAuthenticated == s.isAuthenticated
    ensures r.ui == s.ui && SameData(s, r)
  {
    s.(isLoading := loading)
  }

  // ---------------------------------------------------------------------------
  // UI actions: each replaces one field of `ui` and nothing else
  // ---------------------------------------------------------------------------

  function SetUIError(s: AppState, error: Option<string>): (r: AppState)
    ensures r.ui.error == error
    ensures r.ui == s.ui.(error := r.ui.error)
    ensures SameSession(s, r) && SameData(s, r)
  {
    s.(ui := s.ui.(error := error))
  }

  function SetUILoading(s: AppState, loading: bool): (r: AppState)
    ensures r.ui.isLoading == loading
    ensures r.ui == s.ui.(isLoading := r.ui.isLoading)
    ensures SameSession(s, r) && SameData(s, r)
  {
    s.(ui := s.ui.(isLoading := loading))
  }

  function SetViewMode(s: AppState, mode: ViewMode): (r: AppState)
    ensures r.ui.viewMode == mode
    ensures r.ui == s.ui.(viewMode := r.ui.viewMode)
    ensures SameSession(s, r) && SameData(s, r)
  {
    s.(ui := s.ui.(viewMode := mode))
  }

  function SetSelectedAssets(s: AppState, ids: seq<string>): (r: AppState)
    ensures r.ui.selectedAssets == ids
    ensures r.ui == s.ui.(selectedAssets := r.ui.selectedAssets)
    ensures SameSession(s, r) && SameData(s, r)
  {
    s.(ui := s.ui.(selectedAssets := ids))
  }

  /** `addSelectedAsset`: appends, even when the id is already selected. */
  function AddSelectedAsset(s: AppState, id: string): (r: AppState)
    ensures r.ui.selectedAssets == s.ui.selectedAssets + [id]
    ensures multiset(r.ui.selectedAssets)[id] == multiset(s.ui.selectedAssets)[id] + 1
    ensures r.ui == s.ui.(selectedAssets := r.ui.selectedAssets)
    ensures SameSession(s, r) && SameData(s, r)
  {
    s.(ui := s.ui.(selectedAssets := s.ui.selectedAssets + [id]))
  }

  /**
    `removeSelectedAsset`: drops every occurrence of the id and keeps every
    other entry, with its multiplicity and in its order.
  */
  function RemoveSelectedAsset(s: AppState, id: string): (r: AppState)
    ensures id !in r.ui.selectedAssets
    ensures forall x :: x in r.ui.selectedAssets <==> x in s.ui.selectedAssets && x != id
    ensures forall x :: multiset(r.ui.selectedAssets)[x] == (if x == id then 0 else multiset(s.ui.selectedAssets)[x])
    ensures IsSubsequence(r.ui.selectedAssets, s.ui.selectedAssets)
    ensures r.ui == s.ui.(selectedAssets := r.ui.selectedAssets)
    ensures SameSession(s, r) && SameData(s, r)
  {
    RemoveByIdExact(s.ui.selectedAssets, SelfId, id);
    s.(ui := s.ui.(selectedAssets := RemoveById(s.ui.selectedAssets, SelfId, id)))
  }

  function ClearSelectedAssets(s: AppState): (r: AppState)
    ensures r.ui.selectedAssets == []
    ensures r.ui == s.ui.(selectedAssets := [])
    ensures SameSession(s, r) && SameData(s, r)
  {
    s.(ui := s.ui.(selectedAssets := []))
  }

  /** `setFilters`: a shallow merge; supplied keys overwrite, omitted keys are kept. */
  function SetFilters(s: AppState, patch: Filters): (r: AppState)
    ensures patch.kind.Some? ==> r.ui.filters.kind == patch.kind
    ensures patch.kind.None? ==> r.ui.filters.kind == s.ui.filters.kind
    ensures patch.status.Some? ==> r.ui.filters.status == patch.status
    ensures patch.status.None? ==> r.ui.filters.status == s.ui.filters.status
    ensures patch.dateRange.Some? ==> r.ui.filters.dateRange == patch.dateRange
    ensures patch.dateRange.None? ==> r.ui.filters.dateRange == s.ui.filters.dateRange
    ensures patch.tags.Some? ==> r.ui.filters.tags == patch.tags
    ensures patch.tags.None? ==> r.ui.filters.tags == s.ui.filters.tags
    ensures r.ui == s.ui.(filters := r.ui.filters)
    ensures SameSession(s, r) && SameData(s, r)
  {
    s.(ui := s.ui.(filters := SpreadFilters(s.ui.filters, patch)))
  }

  // ---------------------------------------------------------------------------
  // Collection actions
  // ---------------------------------------------------------------------------

  function SetProjects(s: AppState, projects: seq<Project>): (r: AppState)
    ensures r == s.(projects := projects)
  {
    s.(projects := projects)
  }

  /** `addProject`: appended at the end; no duplicate-id check. */
  function AddProject(s: AppState, p: Project): (r: AppState)
    ensures r.projects == s.projects + [p]
    ensures r == s.(projects := r.projects)
  {
    s.(projects := s.projects + [p])
  }

  /** `updateProject`: every project with the id gets the patch merged in; order and length are kept. */
  function UpdateProject(s: AppState, id: string, patch: ProjectPatch): (r: AppState)
    ensures |r.projects| == |s.projects|
    ensures forall i :: 0 <= i < |s.projects| && s.projects[i].id == id ==> r.projects[i] == SpreadProject(s.projects[i], patch)
    ensures forall i :: 0 <= i < |s.projects| && s.projects[i].id != id ==> r.projects[i] == s.projects[i]
    ensures r == s.(projects := r.projects)
  {
    s.(projects := UpdateById(s.projects, ProjectId, id, SpreadProject, patch))
  }

  /** `removeProject`: every project with the id is dropped. */
  function RemoveProject(s: AppState, id: string): (r: AppState)
    ensures forall p :: p in r.projects <==> p in s.projects && p.id != id
    ensures r == s.(projects := r.projects)
  {
    s.(projects := RemoveById(s.projects, ProjectId, id))
  }

  function SetAssets(s: AppState, assets: seq<Asset>): (r: AppState)
    ensures r == s.(assets := assets)
  {
    s.(assets := assets)
  }

  /** `addAsset`: appended at the end; no duplicate-id check. */
  function AddAsset(s: AppState, a: Asset): (r: AppState)
    ensures r.assets == s.assets + [a]
    ensures r == s.(assets := r.assets)
  {
    s.(assets := s.assets + [a])
  }

  /** `updateAsset`: every asset with the id gets the patch merged in; order and length are kept. */
  function UpdateAsset(s: AppState, id: string, patch: AssetPatch): (r: AppState)
    ensures |r.assets| == |s.assets|
    ensures forall i :: 0 <= i < |s.assets| && s.assets[i].id == id ==> r.assets[i] == SpreadAsset(s.assets[i], patch)
    ensures forall i :: 0 <= i < |s.assets| && s.assets[i].id != id ==> r.assets[i] == s.assets[i]
    ensures r == s.(assets := r.assets)
  {
    s.(assets := UpdateById(s.assets, AssetId, id, SpreadAsset, patch))
  }

  /**
    `removeAsset`: every asset with the id is dropped, and so is every
    occurrence of the id in the selection; the other UI fields are kept.
  */
  function RemoveAsset(s: AppState, id: string): (r: AppState)
    ensures forall a :: a in r.assets <==> a in s.assets && a.id != id
    ensures id !in r.ui.selectedAssets
    ensures forall x :: x in r.ui.selectedAssets <==> x in s.ui.selectedAssets && x != id
    ensures r.ui == s.ui.(selectedAssets := r.ui.selectedAssets)
    ensures r == s.(assets := r.assets, ui := r.ui)
  {
    s.(assets := RemoveById(s.assets, AssetId, id),
       ui := s.ui.(selectedAssets := RemoveById(s.ui.selectedAssets, SelfId, id)))
  }

  function SetGenerationJobs(s: AppState, jobs: seq<GenerationJob>): (r: AppState)
    ensures r == s.(generationJobs := jobs)
  {
    s.(generationJobs := jobs)
  }

  /** `addGenerationJob`: appended at the end; no duplicate-id check. */
  function AddGenerationJob(s: AppState, j: GenerationJob): (r: AppState)
    ensures r.generationJobs == s.generationJobs + [j]
    ensures r == s.(generationJobs := r.generationJobs)
  {
    s.(generationJobs := s.generationJobs + [j])
  }

  /** `updateGenerationJob`: every job with the id gets the patch merged in; order and length are kept. */
  function UpdateGenerationJob(s: AppState, id: string, patch: JobPatch): (r: AppState)
    ensures |r.generationJobs| == |s.generationJobs|
    ensures forall i :: 0 <= i < |s.generationJobs| && s.generationJobs[i].id == id ==> r.generationJobs[i] == SpreadJob(s.generationJobs[i], patch)
    ensures forall i :: 0 <= i < |s.generationJobs| && s.generationJobs[i].id != id ==> r.generationJobs[i] == s.generationJobs[i]
    ensures r == s.(generationJobs := r.generationJobs)
  {
    s.(generationJobs := UpdateById(s.generationJobs, JobId, id, SpreadJob, patch))
  }

  /** `removeGenerationJob`: every job with the id is dropped. */
  function RemoveGenerationJob(s: AppState, id: string): (r: AppState)
    ensures forall j :: j in r.generationJobs <==> j in s.generationJobs && j.id != id
    ensures r == s.(generationJobs := r.generationJobs)
  {
    s.(generationJobs := RemoveById(s.generationJobs, JobId, id))
  }

  /** `reset`: back to empty, signed out and not loading, whatever the state was. */
  function Reset(s: AppState): (r: AppState)
    ensures r.user.None? && !r.isAuthenticated && !r.isLoading
    ensures r.ui == InitialUI
    ensures r.projects == [] && r.assets == [] && r.generationJobs == []
  {
    AppState(None, false, false, InitialUI, [], [], [])
  }

  // ---------------------------------------------------------------------------
  // Properties relating several actions
  // ---------------------------------------------------------------------------

  /**
    The initial state and the state after `reset` differ only in the session
    loading flag, and `reset` forgets everything about the state it is given.
  */
  lemma ResetIsInitialNotLoading(s: AppState, t: AppState)
    ensures Reset(s) == Initial.(isLoading := false)
    ensures Reset(s) == Reset(t)
    ensures Initial.isLoading && Initial.ui.viewMode == Grid && Initial.ui.error.None?
    ensures Initial.ui.selectedAssets == [] && Initial.ui.filters == NoFilters
  {
  }

  /** An update by an id no project carries changes nothing (it never inserts); likewise for assets and jobs. */
  lemma UpdateAbsentIsNoOp(s: AppState, id: string, pp: ProjectPatch, ap: AssetPatch, jp: JobPatch)
    ensures Absent(s.projects, ProjectId, id) ==> UpdateProject(s, id, pp) == s
    ensures Absent(s.assets, AssetId, id) ==> UpdateAsset(s, id, ap) == s
    ensures Absent(s.generationJobs, JobId, id) ==> UpdateGenerationJob(s, id, jp) == s
  {
    if Absent(s.projects, ProjectId, id) {
      UpdateAbsentIsIdentity(s.projects, ProjectId, id, SpreadProject, pp);
    }
    if Absent(s.assets, AssetId, id) {
      UpdateAbsentIsIdentity(s.assets, AssetId, id, SpreadAsset, ap);
    }
    if Absent(s.generationJobs, JobId, id) {
      UpdateAbsentIsIdentity(s.generationJobs, JobId, id, SpreadJob, jp);
    }
  }

  /** A patch without an `id` key leaves every element's id where it was. */
  lemma UpdateKeepsIds(s: AppState, id: string, pp: ProjectPatch, ap: AssetPatch, jp: JobPatch)
    requires pp.id.None? && ap.id.None? && jp.id.None?
    ensures forall i :: 0 <= i < |s.projects| ==> UpdateProject(s, id, pp).projects[i].id == s.projects[i].id
    ensures forall i :: 0 <= i < |s.assets| ==> UpdateAsset(s, id, ap).assets[i].id == s.assets[i].id
    ensures forall i :: 0 <= i < |s.generationJobs| ==> UpdateGenerationJob(s, id, jp).generationJobs[i].id == s.generationJobs[i].id
  {
  }

  /**
    A removal drops exactly the projects with the id: the others keep their
    multiplicity and their order, and removing again changes nothing.
  */
  lemma RemoveProjectExact(s: AppState, id: string)
    ensures forall p :: multiset(RemoveProject(s, id).projects)[p] == (if p.id == id then 0 else multiset(s.projects)[p])
    ensures IsSubsequence(RemoveProject(s, id).projects, s.projects)
    ensures RemoveProject(RemoveProject(s, id), id) == RemoveProject(s, id)
  {
    RemoveByIdExact(s.projects, ProjectId, id);
    RemoveByIdIdempotent(s.projects, ProjectId, id);
  }

  /** The same for assets; the selection is filtered once and for all too. */
  lemma RemoveAssetExact(s: AppState, id: string)
    ensures forall a :: multiset(RemoveAsset(s, id).assets)[a] == (if a.id == id then 0 else multiset(s.assets)[a])
    ensures IsSubsequence(RemoveAsset(s, id).assets, s.assets)
    ensures forall x :: multiset(RemoveAsset(s, id).ui.selectedAssets)[x] == (if x == id then 0 else multiset(s.ui.selectedAssets)[x])
    ensures IsSubsequence(RemoveAsset(s, id).ui.selectedAssets, s.ui.selectedAssets)
    ensures RemoveAsset(RemoveAsset(s, id), id) == RemoveAsset(s, id)
  {
    RemoveByIdExact(s.assets, AssetId, id);
    RemoveByIdIdempotent(s.assets, AssetId, id);
    assert RemoveAsset(s, id).ui.selectedAssets == RemoveSelectedAsset(s, id).ui.selectedAssets;
    RemoveByIdIdempotent(s.ui.selectedAssets, SelfId, id);
  }

  /** The same for generation jobs. */
  lemma RemoveGenerationJobExact(s: AppState, id: string)
    ensures forall j :: multiset(RemoveGenerationJob(s, id).generationJobs)[j] == (if j.id == id then 0 else multiset(s.generationJobs)[j])
    ensures IsSubsequence(RemoveGenerationJob(s, id).generationJobs, s.generationJobs)
    ensures RemoveGenerationJob(RemoveGenerationJob(s, id), id) == RemoveGenerationJob(s, id)
  {
    RemoveByIdExact(s.generationJobs, JobId, id);
    RemoveByIdIdempotent(s.generationJobs, JobId, id);
  }

  /** Adding an element whose id is new and then removing that id restores the collection. */
  lemma AddThenRemoveRestores(s: AppState, p: Project, a: Asset, j: GenerationJob)
    ensures Absent(s.projects, ProjectId, p.id) ==> RemoveProject(AddProject(s, p), p.id) == s
    ensures Absent(s.assets, AssetId, a.id) && a.id !in s.ui.selectedAssets ==> RemoveAsset(AddAsset(s, a), a.id) == s
    ensures Absent(s.generationJobs, JobId, j.id) ==> RemoveGenerationJob(AddGenerationJob(s, j), j.id) == s
  {
    if Absent(s.projects, ProjectId, p.id) {
      RemoveAfterAppend(s.projects, p, ProjectId);
    }
    if Absent(s.assets, AssetId, a.id) && a.id !in s.ui.selectedAssets {
      RemoveAfterAppend(s.assets, a, AssetId);
      assert Absent(s.ui.selectedAssets, SelfId, a.id);
      RemoveAbsentIsIdentity(s.ui.selectedAssets, SelfId, a.id);
    }
    if Absent(s.generationJobs, JobId, j.id) {
      RemoveAfterAppend(s.generationJobs, j, JobId);
    }
  }

  /** Every selected id names an asset the state holds. */
  ghost predicate SelectionKnown(s: AppState) {
    forall x :: x in s.ui.selectedAssets ==> exists a :: a in s.assets && a.id == x
  }

  /**
    `removeAsset` keeps "every selected id names a held asset", and so do
    adding an asset and deselecting; `addSelectedAsset` does not check it.
  */
  lemma SelectionKnownPreserved(s: AppState, id: string, a: Asset)
    requires SelectionKnown(s)
    ensures SelectionKnown(RemoveAsset(s, id))
    ensures SelectionKnown(AddAsset(s, a))
    ensures SelectionKnown(RemoveSelectedAsset(s, id))
    ensures SelectionKnown(ClearSelectedAssets(s))
  {
    var r := RemoveAsset(s, id);
    forall x | x in r.ui.selectedAssets
      ensures exists b :: b in r.assets && b.id == x
    {
      var b :| b in s.assets && b.id == x;
      assert b in r.assets;
    }
    var t := AddAsset(s, a);
    forall x | x in t.ui.selectedAssets
      ensures exists b :: b in t.assets && b.id == x
    {
      var b :| b in s.assets && b.id == x;
      assert b in t.assets;
    }
  }

  /** Selecting an id that names no asset breaks the invariant: the selection is not checked. */
  lemma AddSelectedAssetUnchecked()
    ensures SelectionKnown(Initial) && !SelectionKnown(AddSelectedAsset(Initial, "a"))
  {
    var r := AddSelectedAsset(Initial, "a");
    assert "a" in r.ui.selectedAssets;
  }

  /** Filters merge like objects: `{}` changes nothing, a repeat changes nothing, and two merges are one. */
  lemma SetFiltersLaws(s: AppState, p: Filters, q: Filters)
    ensures SetFilters(s, NoFilters) == s
    ensures SetFilters(SetFilters(s, p), p) == SetFilters(s, p)
    ensures SetFilters(SetFilters(s, p), q) == SetFilters(s, SpreadFilters(p, q))
  {
  }
}

=== FILE: types.dfy ===
/**
  The closed enumerations and record shapes of the application (types/index.ts).
  JavaScript numbers that hold counts, sizes and cents are `int`; dates are
  opaque `Timestamp`s; a `?`-optional field is an `Option`.
*/
module Types {
  import opened Common

  // ---------------------------------------------------------------------------
  // Closed enumerations, each with the string tag the source compares against
  // ---------------------------------------------------------------------------

  datatype SubscriptionPlan = Free | Pro | Enterprise
  datatype SubscriptionStatus = Active | Canceled | PastDue | Incomplete
  datatype AssetType = ImageAsset | VideoAsset
  datatype AssetStatus = Pending | Processing | Completed | Failed
  datatype JobType = ImageJob | VideoJob
  datatype JobStatus = Queued | JobProcessing | JobCompleted | JobFailed
  datatype ViewMode = Grid | List
  datatype Interval = Month | Year

  function PlanTag(p: SubscriptionPlan): string {
    match p
    case Free => "free"
    case Pro => "pro"
    case Enterprise => "enterprise"
  }

  /** The plan a string names; only the three literal tags of the union type name one. */
  function PlanFromTag(s: string): (r: Option<SubscriptionPlan>)
    ensures r.Some? <==> s in {"free", "pro", "enterprise"}
    ensures r.Some? ==> PlanTag(r.value) == s
    ensures r.None? ==> forall p :: PlanTag(p) != s
  {
    if s == "free" then Some(Free)
    else if s == "pro" then Some(Pro)
    else if s == "enterprise" then Some(Enterprise)
    else None
  }

  function StatusTag(s: SubscriptionStatus): string {
    match s
    case Active => "active"
    case Canceled => "canceled"
    case PastDue => "past_due"
    case Incomplete => "incomplete"
  }

  function StatusFromTag(s: string): (r: Option<SubscriptionStatus>)
    ensures r.Some? <==> s in {"active", "canceled", "past_due", "incomplete"}
    ensures r.Some? ==> StatusTag(r.value) == s
  {
    if s == "active" then Some(Active)
    else if s == "canceled" then Some(Canceled)
    else if s == "past_due" then Some(PastDue)
    else if s == "incomplete" then Some(Incomplete)
    else None
  }

  function AssetTypeTag(t: AssetType): string {
    match t
    case ImageAsset => "image"
    case VideoAsset => "video"
  }

  function AssetTypeFromTag(s: string): (r: Option<AssetType>)
    ensures r.Some? <==> s in {"image", "video"}
    ensures r.Some? ==> AssetTypeTag(r.value) == s
  {
    if s == "image" then Some(ImageAsset)
    else if s == "video" then Some(VideoAsset)
    else None
  }

  function AssetStatusTag(s: AssetStatus): string {
    match s
    case Pending => "pending"
    case Processing => "processing"
    case Completed => "completed"
    case Failed => "failed"
  }

  function AssetStatusFromTag(s: string): (r: Option<AssetStatus>)
    ensures r.Some? <==> s in {"pending", "processing", "completed", "failed"}
    ensures r.Some? ==> AssetStatusTag(r.value) == s
  {
    if s == "pending" then Some(Pending)
    else if s == "processing" then Some(Processing)
    else if s == "completed" then Some(Completed)
    else if s == "failed" then Some(Failed)
    else None
  }

  function JobTypeTag(t: JobType): string {
    match t
    case ImageJob => "image"
    case VideoJob => "video"
  }

  function JobTypeFromTag(s: string): (r: Option<JobType>)
    ensures r.Some? <==> s in {"image", "video"}
    ensures r.Some? ==> JobTypeTag(r.value) == s
  {
    if s == "image" then Some(ImageJob)
    else if s == "video" then Some(VideoJob)
    else None
  }

  function JobStatusTag(s: JobStatus): string {
    match s
    case Queued => "queued"
    case JobProcessing => "processing"
    case JobCompleted => "completed"
    case JobFailed => "failed"
  }

  function JobStatusFromTag(s: string): (r: Option<JobStatus>)
    ensures r.Some? <==> s in {"queued", "processing", "completed", "failed"}
    ensures r.Some? ==> JobStatusTag(r.value) == s
  {
    if s == "queued" then Some(Queued)
    else if s == "processing" then Some(JobProcessing)
    else if s == "completed" then Some(JobCompleted)
    else if s == "failed" then Some(JobFailed)
    else None
  }

  function ViewModeTag(m: ViewMode): string {
    match m
    case Grid => "grid"
    case List => "list"
  }

  function ViewModeFromTag(s: string): (r: Option<ViewMode>)
    ensures r.Some? <==> s in {"grid", "list"}
    ensures r.Some? ==> ViewModeTag(r.value) == s
  {
    if s == "grid" then Some(Grid)
    else if s == "list" then Some(List)
    else None
  }

  function IntervalTag(i: Interval): string {
    match i
    case Month => "month"
    case Year => "year"
  }

  function IntervalFromTag(s: string): (r: Option<Interval>)
    ensures r.Some? <==> s in {"month", "year"}
    ensures r.Some? ==> IntervalTag(r.value) == s
  {
    if s == "month" then Some(Month)
    else if s == "year" then Some(Year)
    else None
  }

  /**
    Every enumeration value has its own tag, and reading a tag back yields the
    value: the string unions of the source are in one-to-one correspondence
    with these datatypes.
  */
  lemma TagsRoundTrip()
    ensures forall p: SubscriptionPlan :: PlanFromTag(PlanTag(p)) == Some(p)
    ensures forall s: SubscriptionStatus :: StatusFromTag(StatusTag(s)) == Some(s)
    ensures forall t: AssetType :: AssetTypeFromTag(AssetTypeTag(t)) == Some(t)
    ensures forall s: AssetStatus :: AssetStatusFromTag(AssetStatusTag(s)) == Some(s)
    ensures forall t: JobType :: JobTypeFromTag(JobTypeTag(t)) == Some(t)
    ensures forall s: JobStatus :: JobStatusFromTag(JobStatusTag(s)) == Some(s)
    ensures forall m: ViewMode :: ViewModeFromTag(ViewModeTag(m)) == Some(m)
    ensures forall i: Interval :: IntervalFromTag(IntervalTag(i)) == Some(i)
  {
  }

  // ---------------------------------------------------------------------------
  // Records
  // ---------------------------------------------------------------------------

  /** A date: either a concrete instant or the document store's "server timestamp" placeholder. */
  datatype Timestamp = ServerTimestamp | At(millis: int)

  datatype SubscriptionInfo = SubscriptionInfo(
    plan: SubscriptionPlan,
    status: SubscriptionStatus,
    currentPeriodEnd: Timestamp,
    customerId: string,
    subscriptionId: Option<string>)

  /** Usage counters; `storageUsed` is in MB. */
  datatype UsageInfo = UsageInfo(
    imagesGenerated: int,
    videosGenerated: int,
    storageUsed: int,
    lastReset: Timestamp)

  datatype BrandKit = BrandKit(
    logo: Option<string>,
    colors: seq<string>,
    fonts: seq<string>,
    templates: seq<string>)

  /**
    A user record as the program handles it. The source keeps user documents in
    a schemaless store and casts what it reads with an unchecked `as User`, and
    it patches users with `Partial<User>` objects, so one shape with every key
    optional serves as stored document, patch and the object held by the
    application state. `IsComplete` says when it is a full `User` of the type
    declaration.
  */
  datatype User = User(
    uid: Option<string>,
    email: Option<string>,
    displayName: Option<string>,
    photoURL: Option<string>,
    subscription: Option<SubscriptionInfo>,
    usage: Option<UsageInfo>,
    brandKit: Option<BrandKit>,
    createdAt: Option<Timestamp>,
    updatedAt: Option<Timestamp>)

  /** The object with no keys, `{}`. */
  const NoFields := User(None, None, None, None, None, None, None, None, None)

  /** Every key the declaration of `User` requires is present (only `photoURL` is optional). */
  predicate IsComplete(u: User) {
    && u.uid.Some? && u.email.Some? && u.displayName.Some?
    && u.subscription.Some? && u.usage.Some? && u.brandKit.Some?
    && u.createdAt.Some? && u.updatedAt.Some?
  }

  /** `{...base, ...top}`: each key `top` carries replaces the one in `base`. */
  function SpreadUser(base: User, top: User): User {
    User(
      Over(base.uid, top.uid),
      Over(base.email, top.email),
      Over(base.displayName, top.displayName),
      Over(base.photoURL, top.photoURL),
      Over(base.subscription, top.subscription),
      Over(base.usage, top.usage),
      Over(base.brandKit, top.brandKit),
      Over(base.createdAt, top.createdAt),
      Over(base.updatedAt, top.updatedAt))
  }

  /**
    The laws of a shallow merge: `{}` is a unit on both sides, merging is
    associative, re-applying the same patch changes nothing, and a merge onto
    a complete record stays complete.
  */
  lemma SpreadUserLaws(a: User, b: User, c: User)
    ensures SpreadUser(a, NoFields) == a && SpreadUser(NoFields, a) == a
    ensures SpreadUser(SpreadUser(a, b), c) == SpreadUser(a, SpreadUser(b, c))
    ensures SpreadUser(SpreadUser(a, b), b) == SpreadUser(a, b)
    ensures IsComplete(a) ==> IsComplete(SpreadUser(a, b))
  {
  }

  // --- assets --------------------------------------------------------------

  datatype AssetSettings = AssetSettings(
    model: string,
    style: Option<string>,
    aspectRatio: string,
    resolution: string,
    duration: Option<int>,
    fps: Option<int>)

  datatype AssetUrls = AssetUrls(original: string, thumbnail: string, watermarked: Option<string>)

  datatype Dimensions = Dimensions(width: int, height: int)

  datatype AssetMetadata = AssetMetadata(
    fileSize: int,
    duration: Option<int>,
    dimensions: Dimensions,
    format: string)

  datatype Asset = Asset(
    id: string,
    projectId: string,
    userId: string,
    kind: AssetType,
    prompt: string,
    settings: AssetSettings,
    status: AssetStatus,
    urls: AssetUrls,
    metadata: AssetMetadata,
    createdAt: Timestamp,
    updatedAt: Timestamp)

  /** `Partial<Asset>`: the keys an update supplies. */
  datatype AssetPatch = AssetPatch(
    id: Option<string>,
    projectId: Option<string>,
    userId: Option<string>,
    kind: Option<AssetType>,
    prompt: Option<string>,
    settings: Option<AssetSettings>,
    status: Option<AssetStatus>,
    urls: Option<AssetUrls>,
    metadata: Option<AssetMetadata>,
    createdAt: Option<Timestamp>,
    updatedAt: Option<Timestamp>)

  function AssetId(a: Asset): string { a.id }

  /** `{...asset, ...patch}` */
  function SpreadAsset(a: Asset, p: AssetPatch): Asset {
    Asset(
      OverValue(a.id, p.id),
      OverValue(a.projectId, p.projectId),
      OverValue(a.userId, p.userId),
      OverValue(a.kind, p.kind),
      OverValue(a.prompt, p.prompt),
      OverValue(a.settings, p.settings),
      OverValue(a.status, p.status),
      OverValue(a.urls, p.urls),
      OverValue(a.metadata, p.metadata),
      OverValue(a.createdAt, p.createdAt),
      OverValue(a.updatedAt, p.updatedAt))
  }

  // --- projects ------------------------------------------------------------

  datatype Project = Project(
    id: string,
    userId: string,
    name: string,
    description: Option<string>,
    kind: AssetType,
    assets: seq<string>,
    collaborators: seq<string>,
    isPublic: bool,
    tags: seq<string>,
    createdAt: Timestamp,
    updatedAt: Timestamp)

  /** `Partial<Project>` */
  datatype ProjectPatch = ProjectPatch(
    id: Option<string>,
    userId: Option<string>,
    name: Option<string>,
    description: Option<string>,
    kind: Option<AssetType>,
    assets: Option<seq<string>>,
    collaborators: Option<seq<string>>,
    isPublic: Option<bool>,
    tags: Option<seq<string>>,
    createdAt: Option<Timestamp>,
    updatedAt: Option<Timestamp>)

  function ProjectId(p: Project): string { p.id }

  /** `{...project, ...patch}` */
  function SpreadProject(p: Project, u: ProjectPatch): Project {
    Project(
      OverValue(p.id, u.id),
      OverValue(p.userId, u.userId),
      OverValue(p.name, u.name),
      Over(p.description, u.description),
      OverValue(p.kind, u.kind),
      OverValue(p.assets, u.assets),
      OverValue(p.collaborators, u.collaborators),
      OverValue(p.isPublic, u.isPublic),
      OverValue(p.tags, u.tags),
      OverValue(p.createdAt, u.createdAt),
      OverValue(p.updatedAt, u.updatedAt))
  }

  // --- generation jobs -----------------------------------------------------

  datatype GenerationJob = GenerationJob(
    id: string,
    userId: string,
    kind: JobType,
    priority: int,
    payload: map<string, string>,
    retryCount: int,
    status: JobStatus,
    result: Option<string>,
    error: Option<string>,
    createdAt: Timestamp,
    updatedAt: Timestamp)

  /** `Partial<GenerationJob>` */
  datatype JobPatch = JobPatch(
    id: Option<string>,
    userId: Option<string>,
    kind: Option<JobType>,
    priority: Option<int>,
    payload: Option<map<string, string>>,
    retryCount: Option<int>,
    status: Option<JobStatus>,
    result: Option<string>,
    error: Option<string>,
    createdAt: Option<Timestamp>,
    updatedAt: Option<Timestamp>)

  function JobId(j: GenerationJob): string { j.id }

  /** `{...job, ...patch}` */
  function SpreadJob(j: GenerationJob, u: JobPatch): GenerationJob {
    GenerationJob(
      OverValue(j.id, u.id),
      OverValue(j.userId, u.userId),
      OverValue(j.kind, u.kind),
      OverValue(j.priority, u.priority),
      OverValue(j.payload, u.payload),
      OverValue(j.retryCount, u.retryCount),
      OverValue(j.status, u.status),
      Over(j.result, u.result),
      Over(j.error, u.error),
      OverValue(j.createdAt, u.createdAt),
      OverValue(j.updatedAt, u.updatedAt))
  }

  // --- UI state --------------------------------------------------------------

  /** A date range in milliseconds since the epoch. */
  datatype DateRange = DateRange(start: int, end: int)

  /** The asset filters: every key optional. */
  datatype Filters = Filters(
    kind: Option<AssetType>,
    status: Option<AssetStatus>,
    dateRange: Option<DateRange>,
    tags: Option<seq<string>>)

  const NoFilters := Filters(None, None, None, None)

  /** `{...filters, ...patch}` */
  function SpreadFilters(f: Filters, p: Filters): Filters {
    Filters(Over(f.kind, p.kind), Over(f.status, p.status), Over(f.dateRange, p.dateRange), Over(f.tags, p.tags))
  }

  datatype UIState = UIState(
    isLoading: bool,
    error: Option<string>,
    selectedAssets: seq<string>,
    viewMode: ViewMode,
    filters: Filters)

  // --- plan configuration ----------------------------------------------------

  datatype PlanFeatures = PlanFeatures(
    imagesPerMonth: int,
    videosPerMonth: int,
    storageGB: int,
    priority: bool,
    teamMembers: int,
    apiAccess: bool,
    commercialRights: bool,
    customBranding: bool,
    advancedModels: bool)

  /** A plan offer; `price` is in cents. */
  datatype SubscriptionPlanConfig = SubscriptionPlanConfig(
    id: SubscriptionPlan,
    name: string,
    price: int,
    interval: Interval,
    features: PlanFeatures,
    popular: Option<bool>,
    stripePriceId: string)

  // --- forms -----------------------------------------------------------------

  datatype SignUpForm = SignUpForm(email: string, password: string, displayName: string, agreeToTerms: bool)
  datatype SignInForm = SignInForm(email: string, password: string, rememberMe: bool)
}
